=== FILE: README.md ===
# starter-kit-grpc-golang, modelled in Dafny

A model of the request-handling core of a Go gRPC starter kit: user accounts with JWT-based
sessions, refresh-token rotation, password reset and email verification, an authentication
interceptor with role guards and an optional per-client rate limiter, and an admin API for
listing, creating, updating and deleting users.

The model is functional. The two database tables are sequences of rows: users in insertion order
(`UserRepository.Rows`, whose primary key is a random UUID), tokens in primary-key order, which
for their auto-increment key is also insertion order (`TokenRepository.TokenStore`), and every
service operation is a pure function from a store snapshot, its inputs and the answers of its
collaborators to a result, the new snapshot and the mail handed to the mailer
(`AuthService.Outcome`). Collaborators the model does not look inside are values passed in:

- the JWT codec (`Jwt.Codec`: `generate` and `validate`);
- the password hasher (`Models.Hasher`: `hash` and `check`);
- `uuid.New` (a fresh id string) and `uuid.Parse` (an `isUuid` predicate);
- the clock (`now`, in nanoseconds);
- `net.SplitHostPort`;
- the token bucket's `Allow` answer;
- write faults of the token table and of the mail transport (`AuthService.Faults`).

The end-to-end lemmas about tokens state what they need of the codec as hypotheses:
`Jwt.RoundTrips` and `Jwt.RejectsOtherSecret`.

Go's integer widths are written out: `Decimal.Wrap32` and `Decimal.Wrap64` give two's-complement
wrap-around, and `Decimal.Quot` gives Go's truncating division. `strings.Split` and
`strconv.Atoi` are modelled with their round trips. SQL `LIKE` is modelled with SQLite's
semantics (no escape character).

Modules follow the source layout:

| module | models |
|---|---|
| `Config` | config/config.go |
| `Models` | internal/models |
| `UserRepository`, `TokenRepository` | internal/repository |
| `Pagination` | pkg/utils/pagination.go |
| `TokenService`, `AuthService`, `UserService` | internal/service |
| `AuthProperties` | cross-call properties of `AuthService` |
| `AuthInterceptor`, `Roles`, `RateLimiter` | internal/interceptor |
| `Chain` | the interceptor chain of cmd/server/main.go |
| `AuthHandler`, `UserHandler` | internal/grpc_handler |
| `Results`, `Seqs`, `Text`, `Decimal`, `GrpcStatus`, `CallContext`, `Jwt`, `ServiceErrors` | shared helpers |

Two behaviours of the code are easy to miss:

- `FindAll` passes a `map[string]bool` allow-list (internal/repository/user_repository.go:87-96)
  to `SortScope`, which declares `map[string]string` (pkg/utils/pagination.go:39). That call does
  not compile as written, so it has no behaviour to model. The model follows `SortScope`'s
  declared signature: the five allowed names map to themselves (`Pagination.AllowedSortFields`).
- The role column has the default `'user'` (internal/models/user.go:17). GORM fills it in on
  insert, so `CreateUser` with an empty role stores "user". Any other role is stored exactly as
  given (`UserRepository.WithDefaults`).

## Model

| member | source | states |
|---|---|---|
| `Config.GetEnv` | config/config.go:81-86 | A present variable is returned even when empty; the fallback is used only when the key is absent |
| `Config.GetEnvAsInt` | config/config.go:88-94 | The value is the Atoi reading of the variable; an absent key, a non-decimal value and a decimal outside int64 all give the fallback |
| `Config.EmptyValueFallsBack` | config/config.go:88-94 | A variable set to "" falls back in getEnvAsInt but is returned as "" by getEnv |
| `Config.SignedValuesAccepted` | config/config.go:88-94 | Signed values are accepted: "-5" reads as -5 and "+7" as 7 |
| `Config.MinutesDuration` | config/config.go:66-69 | A minute count times `time.Minute`, as an int64 that agrees with the exact product modulo 2^64 |
| `Config.DaysDuration` | config/config.go:67 | A day count times 24 times `time.Hour`, as an int64 that agrees with the exact product modulo 2^64 |
| `Config.LoadConfig` | config/config.go:47-79 | Secret, driver and mail host come from their variables when present and from their defaults otherwise; every lifetime is an int64 congruent to its variable (or default) times minutes or days |
| `Config.MinutesExact` | config/config.go:66-69 | Minute lifetimes are n minutes in nanoseconds exactly while that fits in int64 |
| `Config.DaysExact` | config/config.go:67 | The refresh lifetime is n times 24 hours exactly up to 106751 days |
| `Config.DaysOverflow` | config/config.go:67 | At 106752 days the int64 product wraps to a negative duration |
| `Config.Defaults` | config/config.go:51-78 | With nothing set: env "development", port "50051", driver "sqlite", SMTP host "smtp.example.com" on port 587, 30-minute access, 30-day refresh and 15-minute reset and verify lifetimes |
| `Decimal.Atoi` | config/config.go:90 | Parses exactly the optionally signed decimal strings whose value fits in int64, to that value |
| `Decimal.Wrap32` | pkg/utils/pagination.go:32 | The int32 result is congruent to the exact value modulo 2^32 and equals it when it fits |
| `Decimal.Wrap64` | config/config.go:66-69 | The int64 result is congruent to the exact value modulo 2^64 and equals it when it fits |
| `Decimal.Quot` | internal/grpc_handler/user_handler.go:99 | Go's division truncates toward zero: the bounds on the quotient for either sign of the dividend |
| `Text.Utf8Length` | internal/models/user.go:34 | Go's `len` counts UTF-8 bytes: at least the character count, and equal to it exactly for ASCII text |
| `Text.LikeIsContainment` | internal/repository/user_repository.go:52-58 | For a search without `%` or `_`, matching `%q%` is substring containment |
| `Models.BeforeCreate` | internal/models/user.go:24-29 | A fresh id only when the id is empty; an existing id is kept; no other field changes |
| `Models.BeforeSave` | internal/models/user.go:33-42 | A non-empty password under 60 bytes is replaced by its hash; an empty or long one is kept; a hashing failure aborts the save; no other field changes |
| `Models.ComparePassword` | internal/models/user.go:45-47 | The answer is the hasher's check of the plain text against the stored password, and depends on no other field |
| `Models.ComparePasswordAfterSave` | internal/models/user.go:33-47 | A short password set through the save hook compares equal to itself afterwards, given a hasher whose check accepts its own hashes |
| `Models.BeforeSaveIdempotent` | internal/models/user.go:33-42 | Saving twice is saving once when the hash is at least 60 bytes long |
| `TokenRepository.Create` | internal/repository/repository.go:19 | Appends exactly one non-blacklisted row under the next key, or fails and changes nothing |
| `TokenRepository.FindByToken` | internal/repository/repository.go:20 | Some row matching both the token string and the purpose tag, and none exactly when no row matches both |
| `TokenRepository.Delete` | internal/repository/repository.go:22 | Removes the rows with the record's primary key and keeps all others |
| `TokenRepository.DeleteByUserIDAndType` | internal/repository/repository.go:21 | Removes exactly the rows of that user with that purpose tag |
| `TokenRepository.CreateKeepsValid` | internal/models/token.go:14 | Primary keys stay distinct and below the next key |
| `TokenRepository.DeleteRemovesExactlyThatRecord` | internal/repository/repository.go:22 | Deleting a stored record removes it and no other record |
| `TokenRepository.DeleteByUserIDAndTypeKeepsValid` | internal/repository/repository.go:21 | Bulk delete keeps the primary keys distinct |
| `UserRepository.FindByID` | internal/repository/user_repository.go:34-41 | A row with that id, and none exactly when no row has it |
| `UserRepository.FindByEmail` | internal/repository/user_repository.go:25-32 | A row with that email, and none exactly when no row has it |
| `UserRepository.ExistsByEmail` | internal/repository/user_repository.go:103-107 | True exactly when some row has that email |
| `UserRepository.WithDefaults` | internal/models/user.go:17 | An empty role becomes "user" on insert; a non-empty role is kept; nothing else changes |
| `UserRepository.Create` | internal/repository/user_repository.go:21-23 | Succeeds exactly when the hook succeeds, the email is free and the id (given, or else the fresh one) is unused; a hook error is returned as it is, any other refusal is the constraint error; the stored row is appended with the hooked password, that id, the defaulted role and every other field as given |
| `UserRepository.Update` | internal/repository/user_repository.go:109-111 | Succeeds exactly when the hook succeeds and no other row holds the email; a hook error is returned as it is, an email clash is the constraint error; the saved row is the hooked one, written over the row with its id, or appended when no row has that id |
| `UserRepository.UpdateThenFind` | internal/repository/user_repository.go:109-111 | After saving an existing user, looking its id up returns exactly the saved row |
| `UserRepository.Delete` | internal/repository/user_repository.go:113-115 | Exactly the rows without that id remain |
| `UserRepository.CreateKeepsWellFormed` | internal/models/user.go:12-21 | Inserting keeps ids (primary key) and emails (unique index) distinct |
| `UserRepository.UpdateKeepsWellFormed` | internal/models/user.go:12-21 | Saving keeps ids and emails distinct |
| `UserRepository.DeleteKeepsWellFormed` | internal/repository/user_repository.go:113-115 | Deleting keeps ids and emails distinct |
| `UserRepository.FindAll` | internal/repository/user_repository.go:43-101 | The total counts every filtered row before paging; the page is the run of filtered rows starting after the skipped ones (the offset, a negative one counting as none), as long as the limit allows and rows remain, in the order SortScope picks |
| `UserRepository.ScopedSearchIsContainment` | internal/repository/user_repository.go:52-58 | The "name" and "email" scopes are case-insensitive substring search when the search has no wildcards |
| `UserRepository.NoFiltersCountsEverything` | internal/repository/user_repository.go:49-84 | An empty search and an empty role count every row |
| `UserRepository.IdScopeNeedsUuid` | internal/repository/user_repository.go:59-65 | The "id" scope with a search that is not a UUID finds nothing |
| `Pagination.EffectivePage` | pkg/utils/pagination.go:19-22 | Page below 1 becomes 1; otherwise kept |
| `Pagination.EffectiveLimit` | pkg/utils/pagination.go:24-30 | Limit is 10 below 1, 100 above 100, otherwise kept; always within 1..100 |
| `Pagination.Paginate` | pkg/utils/pagination.go:17-35 | The window limit is the clamped limit (1..100); the offset is the int32 that agrees with (page-1)*limit modulo 2^32 |
| `Pagination.OffsetSkipsEarlierPages` | pkg/utils/pagination.go:32 | While (page-1)*limit fits in int32 the offset skips exactly the earlier pages |
| `Pagination.OffsetOverflows` | pkg/utils/pagination.go:32 | The largest int32 page with limit 100 gives a negative offset |
| `Pagination.SortScope` | pkg/utils/pagination.go:39-63 | An empty sort gives "created_at desc"; any other result orders by an allowed column |
| `Pagination.SortFieldAndDirection` | pkg/utils/pagination.go:46-61 | For "field:dir:...", an allowed field orders by its column, descending exactly when dir lower-cases to "desc"; later segments are ignored; an unknown field falls back to "created_at desc" |
| `Pagination.SortFieldOnly` | pkg/utils/pagination.go:47-58 | A bare allowed field sorts ascending; an unknown one falls back |
| `TokenService.SaveToken` | internal/service/token_service.go:56-64 | Exactly one record appended, with the given token, user, expiry and purpose, not blacklisted |
| `TokenService.VerifyToken` | internal/service/token_service.go:66-68 | Only a record with both the token string and the requested purpose is returned |
| `TokenService.GenerateAuthTokens` | internal/service/token_service.go:22-54 | Access token signed with purpose "access" and the access lifetime, refresh with "refresh" and the refresh lifetime; only the refresh record is stored, with the expiry returned to the caller; a failure returns the signer's or the store's own error and stores nothing |
| `TokenService.GenerateAuthTokensKeepsValid` | internal/service/token_service.go:47-51 | Issuing a pair keeps the token keys distinct |
| `TokenService.SaveTokenKeepsValid` | internal/service/token_service.go:56-64 | Saving a token keeps the token keys distinct |
| `AuthService.Deliver` | internal/service/email_service.go:24-41 | No mail host means success without sending; otherwise the transport decides |
| `AuthService.Register` | internal/service/auth_service.go:43-61 | A taken email fails with "email already taken" and changes nothing. Otherwise: a failed insert returns the insert's error and changes nothing; after an insert the user stays stored, and the call succeeds exactly when the pair is issued, returning the stored user (role "user", unverified) and that pair, or else issuance's own error |
| `AuthService.Login` | internal/service/auth_service.go:63-71 | Unknown email and wrong password give the same error and change nothing; when the password checks, the store is the one pair issuance leaves, and the call succeeds exactly when issuance does, returning the stored user and the issued pair, or else issuance's own error |
| `AuthService.Logout` | internal/service/auth_service.go:73-79 | No matching refresh record gives "token not found" with nothing changed; a found record is deleted, and the call succeeds exactly when the delete does; any failure changes nothing; no signature check |
| `AuthService.RefreshAuth` | internal/service/auth_service.go:81-105 | Missing record, bad signature or missing user each fail and change nothing; past those, the old record is deleted (a failed delete is ignored) and the call succeeds exactly when a new pair is issued for the stored user, returning that pair, or else issuance's own error |
| `AuthService.ForgotPassword` | internal/service/auth_service.go:107-125 | Unknown email succeeds with no record and no mail; for a known email a reset record expiring at now plus the reset lifetime is stored and one mail sent exactly when signing and the store write succeed, and the result is then the mailer's; otherwise an error with nothing changed |
| `AuthService.ResetPassword` | internal/service/auth_service.go:127-145 | An unknown token fails with "password reset failed" and a missing user with "invalid user data", both changing nothing; a refused save returns its error and changes nothing; after a save the new password stays saved and the call succeeds exactly when deleting the user's reset records works, a failed delete leaving every record in place |
| `AuthService.SendVerificationEmail` | internal/service/auth_service.go:147-165 | An unknown user fails with the lookup error; for a stored user a verify record is stored and one mail sent exactly when signing and the store write succeed, and the result is then the mailer's; otherwise an error with nothing changed |
| `AuthService.VerifyEmail` | internal/service/auth_service.go:167-184 | An unknown token or a missing user fails with "email verification failed" and changes nothing; a refused save returns its error and changes nothing; after a save the user stays verified and the call succeeds exactly when deleting the user's verify records works, a failed delete leaving every record in place |
| `AuthProperties.RegisterKeepsValid` | internal/service/auth_service.go:43-61 | Register keeps both tables well formed |
| `AuthProperties.LoginKeepsValid` | internal/service/auth_service.go:63-71 | Login keeps both tables well formed |
| `AuthProperties.LogoutRevokesExactlyThatRecord` | internal/service/auth_service.go:73-79 | A successful logout removes the presented refresh record and no other |
| `AuthProperties.RefreshAuthKeepsValid` | internal/service/auth_service.go:81-105 | Refresh keeps both tables well formed |
| `AuthProperties.RefreshTokenIsSingleUse` | internal/service/auth_service.go:100-104 | When the delete succeeds, presenting the same refresh token again gets "please authenticate" |
| `AuthProperties.FailedRevocationAllowsReplay` | internal/service/auth_service.go:100-101 | When the delete fails the refresh still succeeds and the old token can be replayed |
| `AuthProperties.ForgotPasswordKeepsValid` | internal/service/auth_service.go:107-125 | Forgot-password keeps both tables well formed |
| `AuthProperties.SendVerificationEmailKeepsValid` | internal/service/auth_service.go:147-165 | Sending verification keeps both tables well formed |
| `AuthProperties.ResetPasswordConsumesResetRecords` | internal/service/auth_service.go:127-145 | After a reset the stored user is the hooked new password with no other field changed, and every reset record of that user is gone while all other records remain |
| `AuthProperties.VerifyEmailConsumesVerifyRecords` | internal/service/auth_service.go:167-184 | After verification the user reads back verified, and every verify record of that user is gone while all other records remain |
| `AuthProperties.ConsumptionIgnoresExpiry` | internal/service/auth_service.go:127-184 | Reset and verify give the same outcome at any clock reading: record expiry is never consulted |
| `AuthProperties.RegisterThenLogin` | internal/service/auth_service.go:43-71 | A user registered with a hashable password can log in with it and gets the same user back |
| `AuthProperties.SignUpThenSignIn` | internal/service/auth_service.go:43-71 | With a free email, an unused fresh id, a working hash and working issuance, registration succeeds and the new user can log in with the password |
| `AuthProperties.IssuedRefreshRecordFound` | internal/service/token_service.go:22-68 | The refresh record stored with a fresh token string is the one its lookup finds, and the only matching row |
| `AuthProperties.LoginThenLogout` | internal/service/auth_service.go:63-79 | With working writes and a fresh refresh token, logout accepts the token a login issued, after which a refresh with it gets "please authenticate" |
| `AuthProperties.LoginThenRefresh` | internal/service/auth_service.go:63-105 | With a codec that validates its own refresh tokens and working writes, the refresh token a login issued yields a new pair |
| `AuthProperties.LongPasswordLocksOut` | internal/models/user.go:33-47 | A password of 60 bytes or more is stored verbatim, so a hasher that does not accept a plain text as its own hash refuses every login with it |
| `AuthProperties.ForgotPasswordThenReset` | internal/service/auth_service.go:107-145 | The mailed reset token, presented with a new password, is found, saves that password through the save hook, and is then unknown |
| `AuthProperties.SendVerificationThenVerify` | internal/service/auth_service.go:147-184 | The mailed verification token is found, marks its user verified, and is then unknown |
| `AuthProperties.ForeignRefreshTokenRefused` | internal/service/auth_service.go:83-93 | A refresh token signed under another secret is refused ("invalid token" when stored, "please authenticate" otherwise) and nothing changes |
| `AuthInterceptor.ParseBearer` | internal/interceptor/auth.go:53-59 | A token is extracted only from a header that is "Bearer " followed by that space-free token |
| `AuthInterceptor.BearerHeaderExact` | internal/interceptor/auth.go:53-59 | A header is accepted exactly when it is "Bearer", one space and a space-free token |
| `AuthInterceptor.StrictBearerExamples` | internal/interceptor/auth.go:54-57 | "bearer x" and "Bearer  x" are refused |
| `AuthInterceptor.Authenticate` | internal/interceptor/auth.go:24-77 | Public methods pass unchanged; otherwise missing metadata, no authorization value, a malformed header, a token that does not validate and a non-access token are each refused with their own Unauthenticated status, and a valid access token is forwarded with exactly its id and role |
| `AuthInterceptor.LogoutAndSendVerificationNeedToken` | internal/interceptor/auth.go:28-36 | Logout and SendVerificationEmail are not public and are refused without metadata |
| `AuthInterceptor.IssuedTokensAtTheGate` | internal/interceptor/auth.go:61-75 | An issued access token is forwarded with its subject and role; a refresh token is refused as the wrong type |
| `AuthInterceptor.ForeignSecretRefusedAtTheGate` | internal/interceptor/auth.go:61-65 | A token signed under another secret is refused as invalid, whatever claims it carries |
| `Roles.GetUserIDFromContext` | internal/interceptor/roles.go:11-17 | An absent or empty id is Unauthenticated; otherwise the id |
| `Roles.AuthorizeAdmin` | internal/interceptor/roles.go:20-30 | No role is Unauthenticated; a present role passes exactly when it is "admin", else PermissionDenied |
| `Roles.AuthorizeAdminOrSelf` | internal/interceptor/roles.go:33-46 | A missing id fails even for admins; the caller's own id passes whatever the role; otherwise the admin rule decides |
| `Roles.SelfOrAdmin` | internal/interceptor/roles.go:33-46 | An admin may act on anyone; a "user" only on itself |
| `RateLimiter.GetLimiter` | internal/interceptor/ratelimiter.go:33-44 | Returns the key's limiter, inserting one with the configured rate and burst when new; existing entries are never changed or removed |
| `RateLimiter.GetLimiterTwice` | internal/interceptor/ratelimiter.go:37-43 | Asking twice for a key returns the same limiter and changes nothing the second time |
| `RateLimiter.GetLimiterKeepsValid` | internal/interceptor/ratelimiter.go:38-41 | Different keys never share a limiter |
| `RateLimiter.NewIPRateLimiter` | internal/interceptor/ratelimiter.go:24-31 | An empty, valid registry carrying the given rate and burst |
| `RateLimiter.ServerLimitersAreConfigured` | internal/interceptor/ratelimiter.go:47-50 | In the registry built with rate 5 and burst 20, every client's limiter has exactly those settings |
| `RateLimiter.ClientKey` | internal/interceptor/ratelimiter.go:63-83 | First x-forwarded-for value; else the peer host without port, or the raw address; else "unknown" |
| `RateLimiter.RateLimit` | internal/interceptor/ratelimiter.go:51-59 | A refused bucket ends the call with ResourceExhausted; the lookup happens either way |
| `Chain.Run` | cmd/server/main.go:69-76 | The empty chain forwards the call unchanged; a chain without the rate limiter leaves the registry alone |
| `Chain.RunAppend` | cmd/server/main.go:69-76 | Stages run in order: a chain split in two runs the first part, stops there on a rejection, and otherwise runs the second part from the first part's context and registry |
| `Chain.ObserversAreTransparent` | internal/interceptor/logger.go:15-39 | Recovery and Logger in front of any chain change nothing |
| `Chain.LiveChainIsAuthentication` | cmd/server/main.go:70-75 | As deployed, a call's fate is exactly the authentication verdict |
| `Chain.RateLimitBeforeAuthentication` | cmd/server/main.go:73 | With the limiter enabled, a refused call is ResourceExhausted before any token is inspected |
| `UserService.CreateUser` | internal/service/user_service.go:33-49 | A taken email fails with "email already taken"; otherwise succeeds exactly when the hook succeeds and the fresh id is unused, appending one user with the given name, email and role (column default for an empty role), unverified; a failure returns the hook's error or the constraint error |
| `UserService.GetUserByID` | internal/service/user_service.go:51-53 | The stored user, or the lookup error exactly when no row has the id |
| `UserService.GetUsers` | internal/service/user_service.go:55-63 | The filtered total; the page is the filtered rows from (page-1)*limit on, with page and limit clamped, as many as the limit allows and rows remain, while that offset fits in int32; a wrapped negative offset starts at the first row |
| `UserService.Patched` | internal/service/user_service.go:71-84 | Each non-empty field replaces the stored one; id, role and verification never change |
| `UserService.UpdateUser` | internal/service/user_service.go:65-89 | An unknown id gives "user not found"; a changed email already in use gives "email already taken"; past those, succeeds exactly when the hook succeeds and no other row holds the patched email, saving the patched user over the stored one |
| `UserService.DeleteUser` | internal/service/user_service.go:91-96 | An unknown id gives "user not found"; otherwise the rows with that id are removed |
| `UserService.CreateUserKeepsWellFormed` | internal/service/user_service.go:33-49 | Creating keeps ids and emails distinct |
| `UserService.UpdateUserThenGet` | internal/service/user_service.go:65-89 | After an update the user reads back as saved: same id, role and flag, requested fields changed |
| `UserService.DeleteUserRemovesExactlyOne` | internal/service/user_service.go:91-96 | A delete removes exactly the one user with that id |
| `UserService.UpdateUserKeepingEmailSucceeds` | internal/service/user_service.go:72-77 | Keeping the current email skips the uniqueness check and cannot clash |
| `UserService.UpdateUserSucceedsExactly` | internal/service/user_service.go:65-89 | In a well-formed table, an update of a known user succeeds exactly when the hash succeeds and the requested email is empty, unchanged or unused |
| `UserService.CreateUserThenGet` | internal/service/user_service.go:33-53 | With a free email, an unused fresh id and a working hash, the create succeeds and the user reads back by that id |
| `AuthHandler.Register` | internal/grpc_handler/auth_handler.go:24-34 | The service's session on success; any failure is InvalidArgument with the service's text |
| `AuthHandler.Login` | internal/grpc_handler/auth_handler.go:36-46 | The service's session on success; any failure is Unauthenticated with the service's text, which for an unknown email is the shared credentials error |
| `AuthHandler.Logout` | internal/grpc_handler/auth_handler.go:48-54 | Any failure is NotFound "invalid token" with nothing changed; success is true |
| `AuthHandler.RefreshToken` | internal/grpc_handler/auth_handler.go:56-63 | The service's token pair on success; any failure is Unauthenticated with the service's text |
| `AuthHandler.ForgotPassword` | internal/grpc_handler/auth_handler.go:65-72 | One success message whether or not the email exists; Internal "failed to process request" only on a service error |
| `AuthHandler.ResetPassword` | internal/grpc_handler/auth_handler.go:74-80 | A failure is InvalidArgument with the service's text |
| `AuthHandler.SendVerificationEmail` | internal/grpc_handler/auth_handler.go:82-92 | Without a caller id the guard's error is returned and the service is not called; a service failure is Internal "failed to send email" |
| `AuthHandler.VerifyEmail` | internal/grpc_handler/auth_handler.go:94-99 | A failure is InvalidArgument with the service's text |
| `AuthHandler.ForgotPasswordDoesNotRevealAccounts` | internal/grpc_handler/auth_handler.go:65-72 | A known email's successful reset request gets exactly the answer an unknown email gets |
| `UserHandler.PagesLimit` | internal/grpc_handler/user_handler.go:95-98 | Limit below 1 counts as 10 for the page count; any other limit is used as given, without the cap of 100 |
| `UserHandler.TotalPages` | internal/grpc_handler/user_handler.go:99 | The page count is always an int32 |
| `UserHandler.TotalPagesIsCeiling` | internal/grpc_handler/user_handler.go:94-99 | While nothing overflows, totalPages is the ceiling of total over limit |
| `UserHandler.TotalPagesIgnoresCap` | internal/grpc_handler/user_handler.go:95-99 | A limit of 1000 over 2500 rows reports 3 pages, though each page holds only 100 rows |
| `UserHandler.CreateUser` | internal/grpc_handler/user_handler.go:41-56 | The admin guard runs first; a service failure is InvalidArgument; x-http-code 201 is set only on success |
| `UserHandler.GetUser` | internal/grpc_handler/user_handler.go:58-70 | The admin-or-self guard runs first; a missing user is NotFound "user not found" |
| `UserHandler.ListUsers` | internal/grpc_handler/user_handler.go:72-108 | The admin guard runs first; the response carries exactly the service's page and total, echoes the raw page and limit, and the page count of that total |
| `UserHandler.UpdateUser` | internal/grpc_handler/user_handler.go:110-128 | The admin guard runs first; every service failure (unknown id, email taken, hash error) is Internal with the service's text; on success the service's user and table, with the role never changed |
| `UserHandler.DeleteUser` | internal/grpc_handler/user_handler.go:130-144 | The admin guard runs first; past it, the call succeeds exactly when the service delete does, leaving the service's table, and a failure is NotFound with the service's text; x-http-code 204 is set only on success |
| `UserHandler.HttpCodesReadBack` | internal/grpc_handler/user_handler.go:52-53 | The status header text reads back as the number it was written from |
| `UserHandler.UsersSeeOnlyThemselves` | internal/grpc_handler/user_handler.go:58-62 | A caller with role "user" can read its own record and is refused for any other |

## Left out

- JWT signing and validation (pkg/utils/jwt.go) are the `Jwt.Codec` oracle. Its round trip and wrong-secret rejection are hypotheses of the lemmas that need them. Expiry checking and the acceptance of any HMAC variant (jwt.go:45) are inside the oracle.
- Password hashing, `uuid.New` and `uuid.Parse` are oracles; their implementations are not part of this model.
- The token bucket (`rate.Limiter.Allow`) is an `admitted` input, because it depends on floating point and the clock. The registry mutex is left out because the registry is modelled sequentially. A limiter's identity is its creation serial number, and its rate is a whole number.
- `net.SplitHostPort` is an oracle.
- Panics are not modelled, so Recovery's zero-value reply after a panic is left out. Logging has no effect on outcomes: `Chain` treats Recovery and Logger as pass-through stages.
- The SMTP transport, message subjects, bodies and links are not modelled. Mail is recorded as a `Mail` value, and a transport failure is a fault flag. `MailFailed` stands for whatever error the transport returns.
- These parts are wiring or I/O, not logic: server start-up, the HTTP gateway and its x-http-code rewrite, reflection and signal handling (cmd/server/main.go); the database handle and migration (config/database.go); the swagger UI and the health handler; the `.env` loader. `LoadConfig` takes the environment as a map.
- Timestamps (CreatedAt, UpdatedAt), RFC 3339 formatting of expiry instants and timestamppb conversion are not modelled. An expiry is an integer count of nanoseconds, and `now + ttl` is not wrapped.
- SQL ordering is not modelled. `FindAll` takes the rows in the order the database yields for the chosen ORDER BY, and it reports that order clause without sorting. GORM `First` orders by primary key, and the model takes the first match in table order. For tokens the two orders coincide. For users they can differ, but the unique id and email indexes leave at most one matching row in a well-formed table. A negative offset is taken as no offset.
- `Text.Lower`: only ASCII letters are lower-cased. The source's `strings.ToLower` and SQL `lower` also fold non-ASCII letters.
- `UserRepository.SearchMatches`: LIKE follows SQLite, which has no default escape character. On PostgreSQL a backslash in the search would escape the next character.
- Database failures other than constraint violations are not modelled. `ExistsByEmail`'s ignored error, a failing `Count` and the Internal branch of `ListUsers` (internal/grpc_handler/user_handler.go:85-87) therefore never occur.
- The ON DELETE CASCADE from tokens to users (internal/models/token.go:17) is not modelled, because its effect depends on the driver's foreign-key settings. `DeleteUser` changes only the user table.
- The token repository's implementation is not part of this model. `FindByToken` is taken to be the first row that matches both the token string and the purpose tag.
- `UserService.GetUsers`: when `(page-1)*limit` exceeds int32 and wraps to a non-negative offset, the window is stated only through `UserRepository.Skip` in the contract of `UserRepository.FindAll`, not in terms of page and limit.
- `UserHandler.TotalPagesIsCeiling`: holds only while `total + limit` fits in int64 and the page count fits in int32. Outside that range the wrap-around is modelled but not characterised.
- The Python scripts under api_tests are external clients and state no server-side invariants.

=== FILE: auth_handler.dfy ===
/** The authentication RPCs (internal/grpc_handler/auth_handler.go): each calls one service
    operation and maps its error to a gRPC status. */
module AuthHandler {
  import opened Results
  import opened GrpcStatus
  import opened Config
  import opened CallContext
  import opened TokenService
  import opened ServiceErrors
  import opened AuthService
  import Roles

  /** The RPC's answer, the stores afterwards and the notifications handed to the mailer. */
  datatype Reply<T> = Reply(result: Result<T, Status>, db: Db, sent: seq<Mail>)

  const ProcessFailed: Status := Status(Internal, "failed to process request")
  const LogoutFailed: Status := Status(NotFound, "invalid token")
  const SendFailed: Status := Status(Internal, "failed to send email")

  const ResetSentMessage: string := "If email exists, reset instructions have been sent"
  const ResetDoneMessage: string := "Password reset successfully"
  const VerificationSentMessage: string := "Verification email sent"
  const VerifiedMessage: string := "Email verified successfully"

  /** A service error passed on under the given code with its own text. */
  function WithCode<T>(r: Result<T, string>, code: Code): (s: Result<T, Status>)
    ensures r.Ok? <==> s.Ok?
    ensures r.Ok? ==> s.value == r.value
    ensures r.Err? ==> s.error == Status(code, r.error)
  {
    match r
    case Ok(v) => Ok(v)
    case Err(e) => Err(Status(code, e))
  }

  /** `Register`: a failure, a taken email included, is InvalidArgument. */
  function Register(db: Db, cfg: Config, o: Oracles, name: string, email: string, password: string)
    : (r: Reply<Session>)
    ensures var s := AuthService.Register(db, cfg, o, name, email, password);
      r.db == s.db && r.sent == s.sent && (r.result.Ok? <==> s.result.Ok?)
      && (r.result.Ok? ==> r.result.value == s.result.value)
    ensures AuthService.Register(db, cfg, o, name, email, password).result == Err(EmailTaken) ==>
      r.result == Err(Status(InvalidArgument, EmailTaken))
    ensures r.result.Err? ==> r.result.error == Status(InvalidArgument, AuthService.Register(db, cfg, o, name, email, password).result.error)
  {
    var s := AuthService.Register(db, cfg, o, name, email, password);
    Reply(WithCode(s.result, InvalidArgument), s.db, s.sent)
  }

  /** `Login`: a failure is Unauthenticated, with the one text for both unknown email and wrong
      password. */
  function Login(db: Db, cfg: Config, o: Oracles, email: string, password: string): (r: Reply<Session>)
    ensures var s := AuthService.Login(db, cfg, o, email, password);
      r.db == s.db && r.sent == s.sent && (r.result.Ok? <==> s.result.Ok?)
      && (r.result.Ok? ==> r.result.value == s.result.value)
    ensures r.result.Err? ==> r.result.error == Status(Unauthenticated, AuthService.Login(db, cfg, o, email, password).result.error)
    ensures UserRepository.FindByEmail(db.users, email).None? ==> r.result == Err(Status(Unauthenticated, BadCredentials))
  {
    var s := AuthService.Login(db, cfg, o, email, password);
    Reply(WithCode(s.result, Unauthenticated), s.db, s.sent)
  }

  /** `Logout`: any failure is NotFound "invalid token"; success answers `true`. */
  function Logout(db: Db, o: Oracles, refreshToken: string): (r: Reply<bool>)
    ensures var s := AuthService.Logout(db, o, refreshToken);
      r.db == s.db && r.sent == s.sent
    ensures r.result.Ok? <==> AuthService.Logout(db, o, refreshToken).result.Ok?
    ensures r.result.Ok? ==> r.result.value
    ensures r.result.Err? ==> r.result.error == LogoutFailed && r.db == db
  {
    var s := AuthService.Logout(db, o, refreshToken);
    Reply(if s.result.Ok? then Ok(true) else Err(LogoutFailed), s.db, s.sent)
  }

  /** `RefreshToken`: a failure is Unauthenticated with the service's text. */
  function RefreshToken(db: Db, cfg: Config, o: Oracles, refreshToken: string): (r: Reply<AuthTokens>)
    ensures var s := AuthService.RefreshAuth(db, cfg, o, refreshToken);
      r.db == s.db && r.sent == s.sent && (r.result.Ok? <==> s.result.Ok?)
      && (r.result.Ok? ==> r.result.value == s.result.value)
    ensures r.result.Err? ==> r.result.error == Status(Unauthenticated, AuthService.RefreshAuth(db, cfg, o, refreshToken).result.error)
    ensures TokenService.VerifyToken(db.tokens, refreshToken, Models.TypeRefresh).None? ==>
      r.result == Err(Status(Unauthenticated, PleaseAuthenticate)) && r.db == db
  {
    var s := AuthService.RefreshAuth(db, cfg, o, refreshToken);
    Reply(WithCode(s.result, Unauthenticated), s.db, s.sent)
  }

  /** `ForgotPassword`: one success message whether or not the email exists; Internal with a
      fixed text only when the service fails. */
  function ForgotPassword(db: Db, cfg: Config, o: Oracles, email: string): (r: Reply<string>)
    ensures var s := AuthService.ForgotPassword(db, cfg, o, email);
      r.db == s.db && r.sent == s.sent
    ensures r.result.Ok? <==> AuthService.ForgotPassword(db, cfg, o, email).result.Ok?
    ensures r.result.Ok? ==> r.result.value == ResetSentMessage
    ensures r.result.Err? ==> r.result.error == ProcessFailed
    ensures UserRepository.FindByEmail(db.users, email).None? ==> r == Reply(Ok(ResetSentMessage), db, [])
  {
    var s := AuthService.ForgotPassword(db, cfg, o, email);
    Reply(if s.result.Ok? then Ok(ResetSentMessage) else Err(ProcessFailed), s.db, s.sent)
  }

  /** `ResetPassword`: a failure is InvalidArgument with the service's text. */
  function ResetPassword(db: Db, o: Oracles, token: string, password: string): (r: Reply<string>)
    ensures var s := AuthService.ResetPassword(db, o, token, password);
      r.db == s.db && r.sent == s.sent && (r.result.Ok? <==> s.result.Ok?)
    ensures r.result.Ok? ==> r.result.value == ResetDoneMessage
    ensures r.result.Err? ==> r.result.error == Status(InvalidArgument, AuthService.ResetPassword(db, o, token, password).result.error)
  {
    var s := AuthService.ResetPassword(db, o, token, password);
    Reply(if s.result.Ok? then Ok(ResetDoneMessage) else Err(Status(InvalidArgument, s.result.error)), s.db, s.sent)
  }

  /** `SendVerificationEmail`: without a caller id the guard's Unauthenticated is returned and the
      service is never called; a service failure is Internal with a fixed text. */
  function SendVerificationEmail(db: Db, cfg: Config, o: Oracles, ctx: Ctx): (r: Reply<string>)
    ensures Roles.GetUserIDFromContext(ctx).Err? ==> r == Reply(Err(Roles.NoUserId), db, [])
    ensures Roles.GetUserIDFromContext(ctx).Ok? ==> (
      var s := AuthService.SendVerificationEmail(db, cfg, o, ctx.userId.value);
      && r.db == s.db && r.sent == s.sent
      && (r.result.Ok? <==> s.result.Ok?)
      && (r.result.Ok? ==> r.result.value == VerificationSentMessage)
      && (r.result.Err? ==> r.result.error == SendFailed))
  {
    match Roles.GetUserIDFromContext(ctx)
    case Err(e) => Reply(Err(e), db, [])
    case Ok(userId) =>
      var s := AuthService.SendVerificationEmail(db, cfg, o, userId);
      Reply(if s.result.Ok? then Ok(VerificationSentMessage) else Err(SendFailed), s.db, s.sent)
  }

  /** `VerifyEmail`: a failure is InvalidArgument with the service's text. */
  function VerifyEmail(db: Db, o: Oracles, token: string): (r: Reply<string>)
    ensures var s := AuthService.VerifyEmail(db, o, token);
      r.db == s.db && r.sent == s.sent && (r.result.Ok? <==> s.result.Ok?)
    ensures r.result.Ok? ==> r.result.value == VerifiedMessage
    ensures r.result.Err? ==> r.result.error == Status(InvalidArgument, AuthService.VerifyEmail(db, o, token).result.error)
  {
    var s := AuthService.VerifyEmail(db, o, token);
    Reply(if s.result.Ok? then Ok(VerifiedMessage) else Err(Status(InvalidArgument, s.result.error)), s.db, s.sent)
  }

  /** The forgot-password answer does not reveal whether the email is registered: for a known
      email whose reset goes through, the caller sees exactly the reply an unknown email gets. */
  lemma ForgotPasswordDoesNotRevealAccounts(db: Db, cfg: Config, o: Oracles, known: string, unknown: string)
    requires UserRepository.FindByEmail(db.users, unknown).None?
    requires AuthService.ForgotPassword(db, cfg, o, known).result.Ok?
    ensures ForgotPassword(db, cfg, o, known).result == ForgotPassword(db, cfg, o, unknown).result
  {
  }
}

=== FILE: auth_interceptor.dfy ===
/** The authentication stage (internal/interceptor/auth.go). */
module AuthInterceptor {
  import opened Results
  import opened GrpcStatus
  import opened Text
  import opened Jwt
  import opened Models
  import opened CallContext

  /** What a stage does with a call: pass a (possibly enriched) context on, or end it. */
  datatype Verdict = Forward(ctx: Ctx) | Reject(status: Status)

  /** Methods served without a token; matched exactly. */
  const PublicMethods: set<string> := {
    "/v1.AuthService/Login",
    "/v1.AuthService/Register",
    "/v1.AuthService/RefreshToken",
    "/v1.AuthService/ForgotPassword",
    "/v1.AuthService/ResetPassword",
    "/v1.AuthService/VerifyEmail",
    "/v1.HealthService/HealthCheck"
  }

  const NoMetadata: Status := Status(Unauthenticated, "metadata is not provided")
  const NoToken: Status := Status(Unauthenticated, "authorization token is not provided")
  const BadFormat: Status := Status(Unauthenticated, "invalid token format")
  const BadToken: Status := Status(Unauthenticated, "invalid or expired token")
  const WrongType: Status := Status(Unauthenticated, "invalid token type")

  /** Splits the header on single spaces; exactly two pieces, the first exactly "Bearer". */
  function ParseBearer(header: string): (r: Option<string>)
    ensures r.Some? ==> header == "Bearer " + r.value && ' ' !in r.value
  {
    var parts := Split(header, ' ');
    SplitThenJoin(header, ' ');
    if |parts| == 2 && parts[0] == "Bearer" then
      assert parts[1..] == [parts[1]];
      assert Join(parts, ' ') == parts[0] + [' '] + parts[1];
      Some(parts[1])
    else None
  }

  /** The header is accepted exactly when it is "Bearer", one space, and a space-free token
      (possibly empty). This is stricter than the case-insensitive scheme of RFC 6750 section 2.1. */
  lemma BearerHeaderExact(header: string, token: string)
    ensures ParseBearer(header) == Some(token) <==> header == "Bearer " + token && ' ' !in token
  {
    SplitThenJoin(header, ' ');
    var parts := Split(header, ' ');
    if |parts| == 2 {
      assert parts[1..] == [parts[1]];
      assert Join(parts, ' ') == parts[0] + [' '] + parts[1];
    }
    if header == "Bearer " + token && ' ' !in token {
      JoinThenSplit(["Bearer", token], ' ');
      assert Join(["Bearer", token], ' ') == "Bearer" + [' '] + token;
      assert "Bearer" + [' '] + token == "Bearer " + token;
    }
  }

  /** A lower-case scheme and a double space are both refused. */
  lemma StrictBearerExamples()
    ensures ParseBearer("bearer x") == None
    ensures ParseBearer("Bearer  x") == None
  {
    forall t | true
      ensures ParseBearer("bearer x") != Some(t) && ParseBearer("Bearer  x") != Some(t)
    {
      BearerHeaderExact("bearer x", t);
      BearerHeaderExact("Bearer  x", t);
      if "Bearer  x" == "Bearer " + t {
        assert t[0] == "Bearer  x"[7];
      }
      assert "bearer x"[0] != ("Bearer " + t)[0];
    }
  }

  /** `AuthInterceptor`: public methods pass untouched; otherwise the first authorization value
      must parse as a bearer header, validate under the secret, and carry purpose "access"; its
      subject and role are then attached to the context. */
  function Authenticate(ctx: Ctx, fullMethod: string, secret: string, codec: Codec): (v: Verdict)
    ensures fullMethod in PublicMethods ==> v == Forward(ctx)
    ensures fullMethod !in PublicMethods && ctx.metadata.None? ==> v == Reject(NoMetadata)
    ensures fullMethod !in PublicMethods && ctx.metadata.Some? && Values(ctx.metadata.value, "authorization") == []
            ==> v == Reject(NoToken)
    ensures fullMethod !in PublicMethods && ctx.metadata.Some? && Values(ctx.metadata.value, "authorization") != [] ==> (
      var header := Values(ctx.metadata.value, "authorization")[0];
      && (ParseBearer(header).None? ==> v == Reject(BadFormat))
      && (ParseBearer(header).Some? && codec.validate(ParseBearer(header).value, secret).Err? ==> v == Reject(BadToken))
      && (ParseBearer(header).Some? && codec.validate(ParseBearer(header).value, secret).Ok? ==> (
            var claims := codec.validate(ParseBearer(header).value, secret).value;
            && (claims.tokenType != TypeAccess ==> v == Reject(WrongType))
            && (claims.tokenType == TypeAccess ==>
                  v == Forward(ctx.(userId := Some(claims.userId), role := Some(claims.role)))))))
    ensures v.Reject? ==> v.status.code == GrpcStatus.Unauthenticated
    ensures v.Forward? && fullMethod !in PublicMethods ==> (
      ctx.metadata.Some? && Values(ctx.metadata.value, "authorization") != [] &&
      var header := Values(ctx.metadata.value, "authorization")[0];
      ParseBearer(header).Some? &&
      var claims := codec.validate(ParseBearer(header).value, secret);
      claims.Ok? && claims.value.tokenType == TypeAccess &&
      v.ctx == ctx.(userId := Some(claims.value.userId), role := Some(claims.value.role)))
  {
    if fullMethod in PublicMethods then Forward(ctx)
    else if ctx.metadata.None? then Reject(NoMetadata)
    else
      var values := Values(ctx.metadata.value, "authorization");
      if |values| == 0 then Reject(NoToken)
      else
        match ParseBearer(values[0])
        case None => Reject(BadFormat)
        case Some(token) =>
          match codec.validate(token, secret)
          case Err(_) => Reject(BadToken)
          case Ok(claims) =>
            if claims.tokenType != TypeAccess then Reject(WrongType)
            else Forward(ctx.(userId := Some(claims.userId), role := Some(claims.role)))
  }

  /** Logout and SendVerificationEmail are not public, so they always need an access token. */
  lemma LogoutAndSendVerificationNeedToken(ctx: Ctx, secret: string, codec: Codec)
    requires ctx.metadata.None?
    ensures Authenticate(ctx, "/v1.AuthService/Logout", secret, codec) == Reject(NoMetadata)
    ensures Authenticate(ctx, "/v1.AuthService/SendVerificationEmail", secret, codec) == Reject(NoMetadata)
  {
  }

  /** A context carrying exactly one authorization header. */
  function WithBearer(ctx: Ctx, token: string): Ctx
  {
    ctx.(metadata := Some(map["authorization" := ["Bearer " + token]]))
  }

  /** A token signed under another secret than the server's is refused at the gate as invalid,
      whatever claims it carries. */
  lemma ForeignSecretRefusedAtTheGate(ctx: Ctx, fullMethod: string, secret: string, other: string,
                                      codec: Codec, claims: Claims, ttl: int)
    requires fullMethod !in PublicMethods
    requires other != secret && codec.generate(claims, ttl, other).Ok?
    requires RejectsOtherSecret(codec, claims, ttl, other, secret)
    requires ' ' !in codec.generate(claims, ttl, other).value.token
    ensures Authenticate(WithBearer(ctx, codec.generate(claims, ttl, other).value.token), fullMethod, secret, codec)
            == Reject(BadToken)
  {
    var token := codec.generate(claims, ttl, other).value.token;
    BearerHeaderExact("Bearer " + token, token);
  }

  /** End to end: a freshly issued access token opens a protected method with its own subject and
      role, while a refresh token of the same user is refused for its purpose tag. */
  lemma IssuedTokensAtTheGate(ctx: Ctx, fullMethod: string, secret: string, codec: Codec,
                              user: User, accessTtl: int, refreshTtl: int)
    requires fullMethod !in PublicMethods
    requires RoundTrips(codec, Claims(user.id, user.role, TypeAccess), accessTtl, secret)
    requires RoundTrips(codec, Claims(user.id, user.role, TypeRefresh), refreshTtl, secret)
    requires codec.generate(Claims(user.id, user.role, TypeAccess), accessTtl, secret).Ok?
    requires codec.generate(Claims(user.id, user.role, TypeRefresh), refreshTtl, secret).Ok?
    requires ' ' !in codec.generate(Claims(user.id, user.role, TypeAccess), accessTtl, secret).value.token
    requires ' ' !in codec.generate(Claims(user.id, user.role, TypeRefresh), refreshTtl, secret).value.token
    ensures var access := codec.generate(Claims(user.id, user.role, TypeAccess), accessTtl, secret).value.token;
      var c := WithBearer(ctx, access);
      Authenticate(c, fullMethod, secret, codec) == Forward(c.(userId := Some(user.id), role := Some(user.role)))
    ensures var refresh := codec.generate(Claims(user.id, user.role, TypeRefresh), refreshTtl, secret).value.token;
      Authenticate(WithBearer(ctx, refresh), fullMethod, secret, codec) == Reject(WrongType)
  {
    var access := codec.generate(Claims(user.id, user.role, TypeAccess), accessTtl, secret).value.token;
    var refresh := codec.generate(Claims(user.id, user.role, TypeRefresh), refreshTtl, secret).value.token;
    BearerHeaderExact("Bearer " + access, access);
    BearerHeaderExact("Bearer " + refresh, refresh);
  }
}

=== FILE: auth_properties.dfy ===
/** What the credential lifecycle promises across calls: the stores stay well formed, refresh
    tokens are single-use when revocation succeeds, reset and verify records are consumed, and a
    freshly registered user can sign in. */
module AuthProperties {
  import opened Results
  import opened Models
  import opened Jwt
  import opened Config
  import opened TokenRepository
  import opened UserRepository
  import opened TokenService
  import opened ServiceErrors
  import opened AuthService
  import opened Seqs

  /** Both store invariants: distinct user ids and emails, distinct token keys. */
  predicate DbValid(db: Db)
  {
    WellFormed(db.users) && Valid(db.tokens)
  }

  lemma RegisterKeepsValid(db: Db, cfg: Config, o: Oracles, name: string, email: string, password: string)
    requires DbValid(db)
    ensures DbValid(Register(db, cfg, o, name, email, password).db)
  {
    var u := User("", name, email, password, "user", false);
    if !ExistsByEmail(db.users, email) && UserRepository.Create(db.users, u, o.freshId, o.hasher).Ok? {
      var (stored, users) := UserRepository.Create(db.users, u, o.freshId, o.hasher).value;
      CreateKeepsWellFormed(db.users, u, o.freshId, o.hasher);
      GenerateAuthTokensKeepsValid(db.tokens, stored, cfg.jwt, o.codec, o.faults.tokenCreate);
    }
  }

  lemma LoginKeepsValid(db: Db, cfg: Config, o: Oracles, email: string, password: string)
    requires DbValid(db)
    ensures DbValid(Login(db, cfg, o, email, password).db)
  {
    if FindByEmail(db.users, email).Some? {
      GenerateAuthTokensKeepsValid(db.tokens, FindByEmail(db.users, email).value, cfg.jwt, o.codec, o.faults.tokenCreate);
    }
  }

  /** A successful logout removes the presented refresh record and nothing else. */
  lemma LogoutRevokesExactlyThatRecord(db: Db, o: Oracles, refreshToken: string)
    requires DbValid(db)
    ensures DbValid(Logout(db, o, refreshToken).db)
    ensures Logout(db, o, refreshToken).result.Ok? ==> (
      var rec := VerifyToken(db.tokens, refreshToken, TypeRefresh).value;
      var after := Logout(db, o, refreshToken).db.tokens;
      && rec !in after.rows
      && forall x :: x in after.rows <==> x in db.tokens.rows && x != rec)
  {
    if Logout(db, o, refreshToken).result.Ok? {
      DeleteRemovesExactlyThatRecord(db.tokens, VerifyToken(db.tokens, refreshToken, TypeRefresh).value);
    }
  }

  lemma RefreshAuthKeepsValid(db: Db, cfg: Config, o: Oracles, refreshToken: string)
    requires DbValid(db)
    ensures DbValid(RefreshAuth(db, cfg, o, refreshToken).db)
  {
    var found := VerifyToken(db.tokens, refreshToken, TypeRefresh);
    var claims := o.codec.validate(refreshToken, cfg.jwt.secret);
    if found.Some? && claims.Ok? && FindByID(db.users, claims.value.userId).Some? {
      var user := FindByID(db.users, claims.value.userId).value;
      var afterDelete := if o.faults.tokenDelete then db.tokens else TokenRepository.Delete(db.tokens, found.value, false).value;
      if !o.faults.tokenDelete {
        DeleteRemovesExactlyThatRecord(db.tokens, found.value);
      }
      GenerateAuthTokensKeepsValid(afterDelete, user, cfg.jwt, o.codec, o.faults.tokenCreate);
    }
  }

  /** With revocation working, a refresh token works once: presenting it again is refused, as
      long as the store held it only once and the new pair carries a different token. */
  lemma RefreshTokenIsSingleUse(db: Db, cfg: Config, o: Oracles, again: Oracles, refreshToken: string)
    requires DbValid(db) && !o.faults.tokenDelete
    requires forall i, j :: 0 <= i < |db.tokens.rows| && 0 <= j < |db.tokens.rows|
               && Matches(db.tokens.rows[i], refreshToken, TypeRefresh) && Matches(db.tokens.rows[j], refreshToken, TypeRefresh)
               ==> i == j
    requires RefreshAuth(db, cfg, o, refreshToken).result.Ok?
    requires RefreshAuth(db, cfg, o, refreshToken).result.value.refresh != refreshToken
    ensures var first := RefreshAuth(db, cfg, o, refreshToken);
      RefreshAuth(first.db, cfg, again, refreshToken).result == Err(PleaseAuthenticate)
  {
    var first := RefreshAuth(db, cfg, o, refreshToken);
    var rec := VerifyToken(db.tokens, refreshToken, TypeRefresh).value;
    var deleted := TokenRepository.Delete(db.tokens, rec, false).value;
    var after := first.db.tokens;
    forall i | 0 <= i < |after.rows|
      ensures !Matches(after.rows[i], refreshToken, TypeRefresh)
    {
      if i < |deleted.rows| {
        var x := after.rows[i];
        assert x in deleted.rows;
        var k :| 0 <= k < |db.tokens.rows| && db.tokens.rows[k] == x;
        var m :| 0 <= m < |db.tokens.rows| && db.tokens.rows[m] == rec;
        assert x.id != rec.id;
      }
    }
  }

  /** When revoking the old refresh record fails, the refresh still succeeds and the old token
      stays usable: the same request can be replayed. */
  lemma FailedRevocationAllowsReplay(db: Db, cfg: Config, o: Oracles, refreshToken: string)
    requires o.faults.tokenDelete
    requires RefreshAuth(db, cfg, o, refreshToken).result.Ok?
    ensures var first := RefreshAuth(db, cfg, o, refreshToken);
      && VerifyToken(db.tokens, refreshToken, TypeRefresh).value in first.db.tokens.rows
      && RefreshAuth(first.db, cfg, o, refreshToken).result.Ok?
  {
    var first := RefreshAuth(db, cfg, o, refreshToken);
    var rec := VerifyToken(db.tokens, refreshToken, TypeRefresh).value;
    assert first.db.tokens.rows[..|db.tokens.rows|] == db.tokens.rows;
    assert rec in first.db.tokens.rows;
    var k :| 0 <= k < |first.db.tokens.rows| && first.db.tokens.rows[k] == rec;
    assert VerifyToken(first.db.tokens, refreshToken, TypeRefresh).Some?;
  }

  lemma ForgotPasswordKeepsValid(db: Db, cfg: Config, o: Oracles, email: string)
    requires DbValid(db)
    ensures DbValid(ForgotPassword(db, cfg, o, email).db)
  {
    var r := ForgotPassword(db, cfg, o, email);
    if r.sent != [] {
      var user := FindByEmail(db.users, email).value;
      var signed := o.codec.generate(Claims(user.id, user.role, TypeResetPassword), cfg.jwt.resetPasswordExpiration, cfg.jwt.secret).value;
      SaveTokenKeepsValid(db.tokens, signed.token, user.id, o.now + cfg.jwt.resetPasswordExpiration, TypeResetPassword);
    }
  }

  lemma SendVerificationEmailKeepsValid(db: Db, cfg: Config, o: Oracles, userId: string)
    requires DbValid(db)
    ensures DbValid(SendVerificationEmail(db, cfg, o, userId).db)
  {
    var r := SendVerificationEmail(db, cfg, o, userId);
    if r.sent != [] {
      var user := FindByID(db.users, userId).value;
      var signed := o.codec.generate(Claims(user.id, user.role, TypeVerifyEmail), cfg.jwt.verifyEmailExpiration, cfg.jwt.secret).value;
      SaveTokenKeepsValid(db.tokens, signed.token, user.id, o.now + cfg.jwt.verifyEmailExpiration, TypeVerifyEmail);
    }
  }

  /** A successful reset stores the new password through the save hook, changes no other field of
      the user, and removes every reset record of that user (the presented one included) and no
      other record. */
  lemma ResetPasswordConsumesResetRecords(db: Db, o: Oracles, token: string, newPassword: string)
    requires DbValid(db)
    ensures DbValid(ResetPassword(db, o, token, newPassword).db)
    ensures ResetPassword(db, o, token, newPassword).result.Ok? ==> (
      var rec := VerifyToken(db.tokens, token, TypeResetPassword).value;
      var user := FindByID(db.users, rec.userId).value;
      var after := ResetPassword(db, o, token, newPassword).db;
      && FindByID(after.users, rec.userId).Some?
      && Ok(FindByID(after.users, rec.userId).value) == BeforeSave(user.(password := newPassword), o.hasher)
      && rec !in after.tokens.rows
      && forall x :: x in after.tokens.rows <==>
           x in db.tokens.rows && !(x.userId == rec.userId && x.tokenType == TypeResetPassword))
  {
    var r := ResetPassword(db, o, token, newPassword);
    var found := VerifyToken(db.tokens, token, TypeResetPassword);
    if found.Some? && FindByID(db.users, found.value.userId).Some? {
      var user := FindByID(db.users, found.value.userId).value;
      var u := user.(password := newPassword);
      if Update(db.users, u, o.hasher).Ok? {
        UpdateKeepsWellFormed(db.users, u, o.hasher);
        UpdateThenFind(db.users, u, o.hasher);
        DeleteByUserIDAndTypeKeepsValid(db.tokens, user.id, TypeResetPassword);
      }
    }
  }

  /** A successful verification marks the user verified (other fields pass only through the save
      hook) and removes every verify record of that user and no other record. */
  lemma VerifyEmailConsumesVerifyRecords(db: Db, o: Oracles, token: string)
    requires DbValid(db)
    ensures DbValid(VerifyEmail(db, o, token).db)
    ensures VerifyEmail(db, o, token).result.Ok? ==> (
      var rec := VerifyToken(db.tokens, token, TypeVerifyEmail).value;
      var user := FindByID(db.users, rec.userId).value;
      var after := VerifyEmail(db, o, token).db;
      && FindByID(after.users, rec.userId).Some?
      && FindByID(after.users, rec.userId).value.isEmailVerified
      && Ok(FindByID(after.users, rec.userId).value) == BeforeSave(user.(isEmailVerified := true), o.hasher)
      && rec !in after.tokens.rows
      && forall x :: x in after.tokens.rows <==>
           x in db.tokens.rows && !(x.userId == rec.userId && x.tokenType == TypeVerifyEmail))
  {
    var found := VerifyToken(db.tokens, token, TypeVerifyEmail);
    if found.Some? && FindByID(db.users, found.value.userId).Some? {
      var user := FindByID(db.users, found.value.userId).value;
      var u := user.(isEmailVerified := true);
      if Update(db.users, u, o.hasher).Ok? {
        UpdateKeepsWellFormed(db.users, u, o.hasher);
        UpdateThenFind(db.users, u, o.hasher);
        DeleteByUserIDAndTypeKeepsValid(db.tokens, user.id, TypeVerifyEmail);
      }
    }
  }

  /** Neither reset nor verification looks at the clock: a record past its expiry is honoured
      exactly as a fresh one. */
  lemma ConsumptionIgnoresExpiry(db: Db, o: Oracles, later: int, token: string, newPassword: string)
    ensures ResetPassword(db, o, token, newPassword) == ResetPassword(db, o.(now := later), token, newPassword)
    ensures VerifyEmail(db, o, token) == VerifyEmail(db, o.(now := later), token)
  {
  }

  /** A user who registered with a password short enough to be hashed can sign in with it, given
      a hasher whose check accepts its own hashes and a token store that accepts the new row. */
  lemma RegisterThenLogin(db: Db, cfg: Config, o: Oracles, later: Oracles, name: string, email: string, password: string)
    requires Register(db, cfg, o, name, email, password).result.Ok?
    requires NeedsHash(password)
    requires o.hasher.hash(password).Ok? ==> o.hasher.check(password, o.hasher.hash(password).value)
    requires later.codec == o.codec && later.hasher == o.hasher && !later.faults.tokenCreate
    ensures var reg := Register(db, cfg, o, name, email, password);
      var login := Login(reg.db, cfg, later, email, password);
      login.result.Ok? && login.result.value.user == reg.result.value.user
  {
    var reg := Register(db, cfg, o, name, email, password);
    var u := reg.result.value.user;
    var candidate := User("", name, email, password, "user", false);
    assert UserRepository.Create(db.users, candidate, o.freshId, o.hasher).Ok?;
    assert u.password == o.hasher.hash(password).value;
    assert !ExistsByEmail(db.users, email);
    assert reg.db.users[|db.users|] == u;
    var found := FindByEmail(reg.db.users, email);
    assert found.Some?;
  }

  /** A password of 60 bytes or more is stored as given; a hasher that rejects a plain text
      compared against itself then turns every sign-in with it away. */
  lemma LongPasswordLocksOut(db: Db, cfg: Config, o: Oracles, later: Oracles, name: string, email: string, password: string)
    requires Register(db, cfg, o, name, email, password).result.Ok?
    requires password != "" && !NeedsHash(password)
    requires !later.hasher.check(password, password)
    ensures var reg := Register(db, cfg, o, name, email, password);
      && reg.result.value.user.password == password
      && Login(reg.db, cfg, later, email, password).result == Err(BadCredentials)
  {
    var reg := Register(db, cfg, o, name, email, password);
    var u := reg.result.value.user;
    assert reg.db.users[|db.users|] == u;
  }
  /** A record appended under a token string no earlier record of its purpose carries is the
      one the lookup finds, and removing its user's records of that purpose makes the token
      unknown again. */
  lemma FreshRecordFoundThenConsumed(before: TokenStore, after: TokenStore, rec: TokenRecord)
    requires after.rows == before.rows + [rec]
    requires forall i :: 0 <= i < |before.rows| ==> !Matches(before.rows[i], rec.token, rec.tokenType)
    ensures VerifyToken(after, rec.token, rec.tokenType) == Some(rec)
    ensures VerifyToken(DeleteByUserIDAndType(after, rec.userId, rec.tokenType, false).value, rec.token, rec.tokenType).None?
  {
    var found := VerifyToken(after, rec.token, rec.tokenType);
    assert after.rows[|before.rows|] == rec;
    var k :| 0 <= k < |after.rows| && after.rows[k] == found.value;
    var gone := DeleteByUserIDAndType(after, rec.userId, rec.tokenType, false).value;
    forall i | 0 <= i < |gone.rows|
      ensures !Matches(gone.rows[i], rec.token, rec.tokenType)
    {
      var x := gone.rows[i];
      assert x in after.rows;
      var j :| 0 <= j < |after.rows| && after.rows[j] == x;
      if j < |before.rows| {
        assert before.rows[j] == x;
      }
    }
  }

  /** In a well-formed table a stored user is what its id looks up, and saving it with its own id
      and email cannot clash with another row, so only the save hook can refuse the save. */
  lemma StoredUserSaves(rows: Rows, user: User, u: User, hasher: Hasher)
    requires WellFormed(rows) && user in rows
    requires u.id == user.id && u.email == user.email
    requires BeforeSave(u, hasher).Ok?
    ensures FindByID(rows, user.id) == Some(user)
    ensures Update(rows, u, hasher).Ok?
  {
    var found := FindByID(rows, user.id).value;
    DistinctKeyDeterminesElement(rows, IdOf, found, user);
    if EmailTakenByOther(rows, BeforeSave(u, hasher).value) {
      var i :| 0 <= i < |rows| && rows[i].id != u.id && rows[i].email == u.email;
      DistinctKeyDeterminesElement(rows, EmailOf, rows[i], user);
    }
  }

  /** End to end: the reset token a forgot-password request mails to a registered address opens
      the reset, which saves the new password through the save hook and consumes the token,
      given a token string the store has not seen before and working writes. */
  lemma ForgotPasswordThenReset(db: Db, cfg: Config, o: Oracles, later: Oracles, email: string, newPassword: string)
    requires DbValid(db)
    requires FindByEmail(db.users, email).Some?
    requires var user := FindByEmail(db.users, email).value;
      var signed := o.codec.generate(Claims(user.id, user.role, TypeResetPassword), cfg.jwt.resetPasswordExpiration, cfg.jwt.secret);
      && signed.Ok? && !o.faults.tokenCreate
      && forall i :: 0 <= i < |db.tokens.rows| ==> !Matches(db.tokens.rows[i], signed.value.token, TypeResetPassword)
    requires !later.faults.tokenDelete
    requires BeforeSave(FindByEmail(db.users, email).value.(password := newPassword), later.hasher).Ok?
    ensures var user := FindByEmail(db.users, email).value;
      var forgot := ForgotPassword(db, cfg, o, email);
      && |forgot.sent| == 1 && forgot.sent[0].kind == ResetPasswordMail && forgot.sent[0].to == email
      && var reset := ResetPassword(forgot.db, later, forgot.sent[0].token, newPassword);
      && reset.result.Ok?
      && FindByID(reset.db.users, user.id) == Some(BeforeSave(user.(password := newPassword), later.hasher).value)
      && VerifyToken(reset.db.tokens, forgot.sent[0].token, TypeResetPassword).None?
  {
    var user := FindByEmail(db.users, email).value;
    var signed := o.codec.generate(Claims(user.id, user.role, TypeResetPassword), cfg.jwt.resetPasswordExpiration, cfg.jwt.secret).value;
    var forgot := ForgotPassword(db, cfg, o, email);
    var rec := TokenRecord(db.tokens.nextId, signed.token, user.id, TypeResetPassword, o.now + cfg.jwt.resetPasswordExpiration, false);
    assert forgot.db.tokens.rows == db.tokens.rows + [rec];
    FreshRecordFoundThenConsumed(db.tokens, forgot.db.tokens, rec);
    var u := user.(password := newPassword);
    StoredUserSaves(db.users, user, u, later.hasher);
    UpdateThenFind(db.users, u, later.hasher);
  }

  /** End to end: the verification token mailed to a stored user opens the verification, which
      marks that user verified and consumes the token, given a token string the store has not
      seen before and working writes. */
  lemma SendVerificationThenVerify(db: Db, cfg: Config, o: Oracles, later: Oracles, userId: string)
    requires DbValid(db)
    requires FindByID(db.users, userId).Some?
    requires var user := FindByID(db.users, userId).value;
      var signed := o.codec.generate(Claims(user.id, user.role, TypeVerifyEmail), cfg.jwt.verifyEmailExpiration, cfg.jwt.secret);
      && signed.Ok? && !o.faults.tokenCreate
      && forall i :: 0 <= i < |db.tokens.rows| ==> !Matches(db.tokens.rows[i], signed.value.token, TypeVerifyEmail)
    requires !later.faults.tokenDelete
    requires BeforeSave(FindByID(db.users, userId).value.(isEmailVerified := true), later.hasher).Ok?
    ensures var user := FindByID(db.users, userId).value;
      var send := SendVerificationEmail(db, cfg, o, userId);
      && |send.sent| == 1 && send.sent[0].kind == VerificationMail && send.sent[0].to == user.email
      && var verify := VerifyEmail(send.db, later, send.sent[0].token);
      && verify.result.Ok?
      && FindByID(verify.db.users, userId).Some?
      && FindByID(verify.db.users, userId).value.isEmailVerified
      && VerifyToken(verify.db.tokens, send.sent[0].token, TypeVerifyEmail).None?
  {
    var user := FindByID(db.users, userId).value;
    var signed := o.codec.generate(Claims(user.id, user.role, TypeVerifyEmail), cfg.jwt.verifyEmailExpiration, cfg.jwt.secret).value;
    var send := SendVerificationEmail(db, cfg, o, userId);
    var rec := TokenRecord(db.tokens.nextId, signed.token, user.id, TypeVerifyEmail, o.now + cfg.jwt.verifyEmailExpiration, false);
    assert send.db.tokens.rows == db.tokens.rows + [rec];
    FreshRecordFoundThenConsumed(db.tokens, send.db.tokens, rec);
    var u := user.(isEmailVerified := true);
    StoredUserSaves(db.users, user, u, later.hasher);
    UpdateThenFind(db.users, u, later.hasher);
  }
  /** A refresh token signed under another secret is refused as invalid and changes nothing,
      even when the store holds a record for it. */
  lemma ForeignRefreshTokenRefused(db: Db, cfg: Config, o: Oracles, claims: Claims, ttl: int, other: string)
    requires other != cfg.jwt.secret && o.codec.generate(claims, ttl, other).Ok?
    requires RejectsOtherSecret(o.codec, claims, ttl, other, cfg.jwt.secret)
    ensures var token := o.codec.generate(claims, ttl, other).value.token;
      var r := RefreshAuth(db, cfg, o, token);
      && r.db == db && r.sent == []
      && r.result == (if VerifyToken(db.tokens, token, TypeRefresh).Some? then Err(InvalidToken) else Err(PleaseAuthenticate))
  {
  }

  /** Sign-up from the success side: a free email, an unused fresh id, a working hash, a codec
      that signs both tokens and a store that takes the record make registration succeed, and the
      new user can then sign in with the password. */
  lemma SignUpThenSignIn(db: Db, cfg: Config, o: Oracles, later: Oracles, name: string, email: string, password: string)
    requires !ExistsByEmail(db.users, email) && FindByID(db.users, o.freshId).None?
    requires NeedsHash(password) && o.hasher.hash(password).Ok?
    requires o.hasher.check(password, o.hasher.hash(password).value)
    requires o.codec.generate(Claims(o.freshId, "user", TypeAccess), cfg.jwt.accessExpiration, cfg.jwt.secret).Ok?
    requires o.codec.generate(Claims(o.freshId, "user", TypeRefresh), cfg.jwt.refreshExpiration, cfg.jwt.secret).Ok?
    requires !o.faults.tokenCreate
    requires later.codec == o.codec && later.hasher == o.hasher && !later.faults.tokenCreate
    ensures var reg := Register(db, cfg, o, name, email, password);
      && reg.result.Ok? && reg.result.value.user.id == o.freshId
      && var login := Login(reg.db, cfg, later, email, password);
      && login.result.Ok? && login.result.value.user == reg.result.value.user
  {
    var candidate := User("", name, email, password, "user", false);
    var stored := UserRepository.Create(db.users, candidate, o.freshId, o.hasher).value.0;
    assert stored.id == o.freshId && stored.role == "user";
    assert AccessClaims(stored) == Claims(o.freshId, "user", TypeAccess);
    assert RefreshClaims(stored) == Claims(o.freshId, "user", TypeRefresh);
    RegisterThenLogin(db, cfg, o, later, name, email, password);
  }

  /** The refresh record a sign-in stores, under a token string the store has not seen, is what
      a lookup of that token finds; nothing else in the store matches it. */
  lemma IssuedRefreshRecordFound(db: Db, cfg: Config, o: Oracles, user: User)
    requires GenerateAuthTokens(db.tokens, user, cfg.jwt, o.codec, o.faults.tokenCreate).0.Ok?
    requires var t := GenerateAuthTokens(db.tokens, user, cfg.jwt, o.codec, o.faults.tokenCreate).0.value;
      forall i :: 0 <= i < |db.tokens.rows| ==> !Matches(db.tokens.rows[i], t.refresh, TypeRefresh)
    ensures var (t, ts) := GenerateAuthTokens(db.tokens, user, cfg.jwt, o.codec, o.faults.tokenCreate);
      && VerifyToken(ts, t.value.refresh, TypeRefresh)
           == Some(TokenRecord(db.tokens.nextId, t.value.refresh, user.id, TypeRefresh, t.value.refreshExp, false))
      && forall x :: x in ts.rows && Matches(x, t.value.refresh, TypeRefresh) ==> x.id == db.tokens.nextId
  {
    var (t, ts) := GenerateAuthTokens(db.tokens, user, cfg.jwt, o.codec, o.faults.tokenCreate);
    var rec := TokenRecord(db.tokens.nextId, t.value.refresh, user.id, TypeRefresh, t.value.refreshExp, false);
    FreshRecordFoundThenConsumed(db.tokens, ts, rec);
    forall x | x in ts.rows && Matches(x, t.value.refresh, TypeRefresh)
      ensures x.id == db.tokens.nextId
    {
      var j :| 0 <= j < |ts.rows| && ts.rows[j] == x;
      if j < |db.tokens.rows| {
        assert db.tokens.rows[j] == x;
      }
    }
  }

  /** Sign-in then sign-out from the success side: with working writes and a fresh refresh token,
      the pair a sign-in issues is accepted by logout, after which the refresh token is refused. */
  lemma LoginThenLogout(db: Db, cfg: Config, o: Oracles, later: Oracles, after: Oracles, email: string, password: string)
    requires FindByEmail(db.users, email).Some?
    requires var user := FindByEmail(db.users, email).value;
      && ComparePassword(user, password, o.hasher)
      && GenerateAuthTokens(db.tokens, user, cfg.jwt, o.codec, o.faults.tokenCreate).0.Ok?
      && var t := GenerateAuthTokens(db.tokens, user, cfg.jwt, o.codec, o.faults.tokenCreate).0.value;
      forall i :: 0 <= i < |db.tokens.rows| ==> !Matches(db.tokens.rows[i], t.refresh, TypeRefresh)
    requires !later.faults.tokenDelete
    ensures var login := Login(db, cfg, o, email, password);
      && login.result.Ok?
      && var refresh := login.result.value.tokens.refresh;
      && var logout := Logout(login.db, later, refresh);
      && logout.result.Ok?
      && RefreshAuth(logout.db, cfg, after, refresh).result == Err(PleaseAuthenticate)
  {
    var user := FindByEmail(db.users, email).value;
    var login := Login(db, cfg, o, email, password);
    var refresh := login.result.value.tokens.refresh;
    IssuedRefreshRecordFound(db, cfg, o, user);
    var logout := Logout(login.db, later, refresh);
    forall i | 0 <= i < |logout.db.tokens.rows|
      ensures !Matches(logout.db.tokens.rows[i], refresh, TypeRefresh)
    {
      assert logout.db.tokens.rows[i] in login.db.tokens.rows;
    }
  }

  /** Sign-in then refresh from the success side: a refresh token that the codec validates back
      to its claims, presented with working writes, yields a new pair. */
  lemma LoginThenRefresh(db: Db, cfg: Config, o: Oracles, later: Oracles, email: string, password: string)
    requires WellFormed(db.users) && FindByEmail(db.users, email).Some?
    requires var user := FindByEmail(db.users, email).value;
      && ComparePassword(user, password, o.hasher)
      && GenerateAuthTokens(db.tokens, user, cfg.jwt, o.codec, o.faults.tokenCreate).0.Ok?
      && var t := GenerateAuthTokens(db.tokens, user, cfg.jwt, o.codec, o.faults.tokenCreate).0.value;
      forall i :: 0 <= i < |db.tokens.rows| ==> !Matches(db.tokens.rows[i], t.refresh, TypeRefresh)
    requires later.codec == o.codec
    requires RoundTrips(o.codec, RefreshClaims(FindByEmail(db.users, email).value), cfg.jwt.refreshExpiration, cfg.jwt.secret)
    requires var user := FindByEmail(db.users, email).value;
      && later.codec.generate(AccessClaims(user), cfg.jwt.accessExpiration, cfg.jwt.secret).Ok?
      && later.codec.generate(RefreshClaims(user), cfg.jwt.refreshExpiration, cfg.jwt.secret).Ok?
      && !later.faults.tokenCreate
    ensures var login := Login(db, cfg, o, email, password);
      && login.result.Ok?
      && var refreshed := RefreshAuth(login.db, cfg, later, login.result.value.tokens.refresh);
      && refreshed.result.Ok?
      && refreshed.db.users == db.users
  {
    var user := FindByEmail(db.users, email).value;
    var login := Login(db, cfg, o, email, password);
    IssuedRefreshRecordFound(db, cfg, o, user);
    var found := FindByID(db.users, user.id);
    DistinctKeyDeterminesElement(db.users, IdOf, found.value, user);
  }
}


=== FILE: auth_service.dfy ===
/** The credential lifecycle (internal/service/auth_service.go): every operation is a pure
    transition from a store snapshot and the collaborators' answers to a result, the new
    snapshot and the notifications handed to the mailer. */
module AuthService {
  import opened Results
  import opened Models
  import opened Jwt
  import opened Config
  import opened TokenRepository
  import opened UserRepository
  import opened TokenService
  import opened ServiceErrors

  /** Both stores. */
  datatype Db = Db(users: Rows, tokens: TokenStore)

  /** Writes the backends refuse during one call, and whether the mail transport fails. */
  datatype Faults = Faults(tokenCreate: bool, tokenDelete: bool, mail: bool)

  /** The answers of the collaborators the model does not look inside, for one call:
      the token codec, the password hasher, `uuid.New()`, the clock (ns) and the faults. */
  datatype Oracles = Oracles(codec: Codec, hasher: Hasher, freshId: string, now: int, faults: Faults)

  datatype MailKind = ResetPasswordMail | VerificationMail

  /** A notification handed to the mailer. */
  datatype Mail = Mail(kind: MailKind, to: string, token: string)

  /** Result, stores afterwards, and notifications handed to the mailer. */
  datatype Outcome<T> = Outcome(result: Result<T, string>, db: Db, sent: seq<Mail>)

  /** A signed-in user with a fresh token pair. */
  datatype Session = Session(user: User, tokens: AuthTokens)

  /** `SendEmail`: a no-op success when no mail host is configured; otherwise the transport decides. */
  function Deliver(cfg: Config, faults: Faults): (r: Result<Unit, string>)
    ensures cfg.smtp.host == "" ==> r.Ok?
    ensures cfg.smtp.host != "" ==> (r.Ok? <==> !faults.mail)
  {
    if cfg.smtp.host == "" then Ok(()) else if faults.mail then Err(MailFailed) else Ok(())
  }

  /** `Register`: refuses a taken email; otherwise stores a new user with role "user" and issues
      a token pair. If issuing fails the user stays stored. */
  function Register(db: Db, cfg: Config, o: Oracles, name: string, email: string, password: string)
    : (r: Outcome<Session>)
    ensures r.sent == []
    ensures ExistsByEmail(db.users, email) ==> r.result == Err(EmailTaken) && r.db == db
    ensures r.result.Ok? ==>
      var u := r.result.value.user;
      && u.role == "user" && u.name == name && u.email == email && !u.isEmailVerified
      && r.db.users == db.users + [u]
    ensures r.result.Ok? ==>
      r.db.tokens.rows == db.tokens.rows + [TokenRecord(db.tokens.nextId, r.result.value.tokens.refresh,
        r.result.value.user.id, TypeRefresh, r.result.value.tokens.refreshExp, false)]
    ensures !ExistsByEmail(db.users, email) ==> (
      var c := UserRepository.Create(db.users, User("", name, email, password, "user", false), o.freshId, o.hasher);
      && (c.Err? ==> r.result == Err(c.error) && r.db == db)
      && (c.Ok? ==>
            var (t, ts) := GenerateAuthTokens(db.tokens, c.value.0, cfg.jwt, o.codec, o.faults.tokenCreate);
            && r.db == Db(c.value.1, ts)
            && (r.result.Ok? <==> t.Ok?)
            && (t.Err? ==> r.result == Err(t.error))
            && (r.result.Ok? ==> r.result.value == Session(c.value.0, t.value))))
  {
    if ExistsByEmail(db.users, email) then Outcome(Err(EmailTaken), db, [])
    else
      match UserRepository.Create(db.users, User("", name, email, password, "user", false), o.freshId, o.hasher)
      case Err(e) => Outcome(Err(e), db, [])
      case Ok((stored, users)) =>
        var (tokens, ts) := GenerateAuthTokens(db.tokens, stored, cfg.jwt, o.codec, o.faults.tokenCreate);
        match tokens
        case Err(e) => Outcome(Err(e), Db(users, ts), [])
        case Ok(t) => Outcome(Ok(Session(stored, t)), Db(users, ts), [])
  }

  /** `Login`: an unknown email and a wrong password give the same error and change nothing. */
  function Login(db: Db, cfg: Config, o: Oracles, email: string, password: string): (r: Outcome<Session>)
    ensures r.sent == [] && r.db.users == db.users
    ensures FindByEmail(db.users, email).None? ==> r.result == Err(BadCredentials) && r.db == db
    ensures FindByEmail(db.users, email).Some? && !ComparePassword(FindByEmail(db.users, email).value, password, o.hasher)
            ==> r.result == Err(BadCredentials) && r.db == db
    ensures r.result.Ok? ==> r.result.value.user == FindByEmail(db.users, email).value
                             && ComparePassword(r.result.value.user, password, o.hasher)
    ensures FindByEmail(db.users, email).Some? && ComparePassword(FindByEmail(db.users, email).value, password, o.hasher) ==> (
      var user := FindByEmail(db.users, email).value;
      var (t, ts) := GenerateAuthTokens(db.tokens, user, cfg.jwt, o.codec, o.faults.tokenCreate);
      && r.db.tokens == ts
      && (r.result.Ok? <==> t.Ok?)
      && (t.Err? ==> r.result == Err(t.error))
      && (r.result.Ok? ==> r.result.value == Session(user, t.value)))
  {
    match FindByEmail(db.users, email)
    case None => Outcome(Err(BadCredentials), db, [])
    case Some(user) =>
      if !ComparePassword(user, password, o.hasher) then Outcome(Err(BadCredentials), db, [])
      else
        var (tokens, ts) := GenerateAuthTokens(db.tokens, user, cfg.jwt, o.codec, o.faults.tokenCreate);
        match tokens
        case Err(e) => Outcome(Err(e), db.(tokens := ts), [])
        case Ok(t) => Outcome(Ok(Session(user, t)), db.(tokens := ts), [])
  }

  /** `Logout`: deletes the refresh record found by (token, "refresh"); consults only the store. */
  function Logout(db: Db, o: Oracles, refreshToken: string): (r: Outcome<Unit>)
    ensures r.sent == [] && r.db.users == db.users
    ensures VerifyToken(db.tokens, refreshToken, TypeRefresh).None? ==> r.result == Err(TokenNotFound) && r.db == db
    ensures r.result.Err? ==> r.db == db
    ensures r.result.Ok? ==>
      var rec := VerifyToken(db.tokens, refreshToken, TypeRefresh).value;
      r.db.tokens == TokenRepository.Delete(db.tokens, rec, false).value
    ensures VerifyToken(db.tokens, refreshToken, TypeRefresh).Some? ==> (r.result.Ok? <==> !o.faults.tokenDelete)
  {
    match VerifyToken(db.tokens, refreshToken, TypeRefresh)
    case None => Outcome(Err(TokenNotFound), db, [])
    case Some(rec) =>
      match TokenRepository.Delete(db.tokens, rec, o.faults.tokenDelete)
      case Err(e) => Outcome(Err(e), db, [])
      case Ok(ts) => Outcome(Ok(()), db.(tokens := ts), [])
  }

  /** `RefreshAuth`: store lookup, then signature check, then the user; any of the three failing
      changes nothing. On success the old record is deleted (a failed delete is ignored) and a new
      pair is issued for the user as currently stored. */
  function RefreshAuth(db: Db, cfg: Config, o: Oracles, refreshToken: string): (r: Outcome<AuthTokens>)
    ensures r.sent == [] && r.db.users == db.users
    ensures VerifyToken(db.tokens, refreshToken, TypeRefresh).None? ==> r.result == Err(PleaseAuthenticate) && r.db == db
    ensures VerifyToken(db.tokens, refreshToken, TypeRefresh).Some? && o.codec.validate(refreshToken, cfg.jwt.secret).Err?
            ==> r.result == Err(InvalidToken) && r.db == db
    ensures VerifyToken(db.tokens, refreshToken, TypeRefresh).Some? && o.codec.validate(refreshToken, cfg.jwt.secret).Ok?
            && FindByID(db.users, o.codec.validate(refreshToken, cfg.jwt.secret).value.userId).None?
            ==> r.result == Err(UserNotFound) && r.db == db
    ensures r.result.Ok? && !o.faults.tokenDelete ==>
      var rec := VerifyToken(db.tokens, refreshToken, TypeRefresh).value;
      var deleted := TokenRepository.Delete(db.tokens, rec, false).value;
      var user := FindByID(db.users, o.codec.validate(refreshToken, cfg.jwt.secret).value.userId).value;
      && r.db.tokens.rows == deleted.rows + [TokenRecord(deleted.nextId, r.result.value.refresh, user.id, TypeRefresh, r.result.value.refreshExp, false)]
    ensures VerifyToken(db.tokens, refreshToken, TypeRefresh).Some? && o.codec.validate(refreshToken, cfg.jwt.secret).Ok?
            && FindByID(db.users, o.codec.validate(refreshToken, cfg.jwt.secret).value.userId).Some?
            ==> (
      var rec := VerifyToken(db.tokens, refreshToken, TypeRefresh).value;
      var user := FindByID(db.users, o.codec.validate(refreshToken, cfg.jwt.secret).value.userId).value;
      var afterDelete := if o.faults.tokenDelete then db.tokens else TokenRepository.Delete(db.tokens, rec, false).value;
      var (t, ts) := GenerateAuthTokens(afterDelete, user, cfg.jwt, o.codec, o.faults.tokenCreate);
      && r.db.tokens == ts
      && (r.result.Ok? <==> t.Ok?)
      && (t.Err? ==> r.result == Err(t.error))
      && (r.result.Ok? ==> r.result.value == t.value))
  {
    match VerifyToken(db.tokens, refreshToken, TypeRefresh)
    case None => Outcome(Err(PleaseAuthenticate), db, [])
    case Some(rec) =>
      match o.codec.validate(refreshToken, cfg.jwt.secret)
      case Err(_) => Outcome(Err(InvalidToken), db, [])
      case Ok(claims) =>
        match FindByID(db.users, claims.userId)
        case None => Outcome(Err(UserNotFound), db, [])
        case Some(user) =>
          var afterDelete := match TokenRepository.Delete(db.tokens, rec, o.faults.tokenDelete)
            case Ok(ts) => ts
            case Err(_) => db.tokens;
          var (tokens, ts) := GenerateAuthTokens(afterDelete, user, cfg.jwt, o.codec, o.faults.tokenCreate);
          Outcome(tokens, db.(tokens := ts), [])
  }

  /** `ForgotPassword`: silent success for an unknown email; otherwise a reset token is signed,
      stored with expiry now + the reset lifetime, and mailed. */
  function ForgotPassword(db: Db, cfg: Config, o: Oracles, email: string): (r: Outcome<Unit>)
    ensures r.db.users == db.users
    ensures FindByEmail(db.users, email).None? ==> r.result.Ok? && r.db == db && r.sent == []
    ensures r.sent != [] ==> (
      FindByEmail(db.users, email).Some? &&
      var user := FindByEmail(db.users, email).value;
      o.codec.generate(Claims(user.id, user.role, TypeResetPassword), cfg.jwt.resetPasswordExpiration, cfg.jwt.secret).Ok? &&
      var signed := o.codec.generate(Claims(user.id, user.role, TypeResetPassword), cfg.jwt.resetPasswordExpiration, cfg.jwt.secret).value;
      && r.sent == [Mail(ResetPasswordMail, user.email, signed.token)]
      && r.db.tokens.rows == db.tokens.rows +
           [TokenRecord(db.tokens.nextId, signed.token, user.id, TypeResetPassword, o.now + cfg.jwt.resetPasswordExpiration, false)])
    ensures FindByEmail(db.users, email).Some? ==> (
      var user := FindByEmail(db.users, email).value;
      (r.sent != [] <==>
         o.codec.generate(Claims(user.id, user.role, TypeResetPassword), cfg.jwt.resetPasswordExpiration, cfg.jwt.secret).Ok?
         && !o.faults.tokenCreate))
    ensures FindByEmail(db.users, email).Some? && r.sent == [] ==> r.result.Err?
    ensures r.sent != [] ==> r.result == Deliver(cfg, o.faults)
    ensures r.sent == [] ==> r.db == db
    ensures r.result.Err? && r.sent != [] ==> cfg.smtp.host != "" && o.faults.mail
  {
    match FindByEmail(db.users, email)
    case None => Outcome(Ok(()), db, [])
    case Some(user) =>
      var ttl := cfg.jwt.resetPasswordExpiration;
      match o.codec.generate(Claims(user.id, user.role, TypeResetPassword), ttl, cfg.jwt.secret)
      case Err(e) => Outcome(Err(e), db, [])
      case Ok(signed) =>
        match SaveToken(db.tokens, signed.token, user.id, o.now + ttl, TypeResetPassword, o.faults.tokenCreate)
        case Err(e) => Outcome(Err(e), db, [])
        case Ok(ts) => Outcome(Deliver(cfg, o.faults), db.(tokens := ts), [Mail(ResetPasswordMail, user.email, signed.token)])
  }

  /** `ResetPassword`: consults only the store. On success the user's password is set (and hashed
      by the save hook) and every reset record of that user is removed. */
  function ResetPassword(db: Db, o: Oracles, token: string, newPassword: string): (r: Outcome<Unit>)
    ensures r.sent == []
    ensures VerifyToken(db.tokens, token, TypeResetPassword).None? ==> r.result == Err(ResetFailed) && r.db == db
    ensures r.result.Ok? ==> (
      VerifyToken(db.tokens, token, TypeResetPassword).Some? &&
      var rec := VerifyToken(db.tokens, token, TypeResetPassword).value;
      FindByID(db.users, rec.userId).Some? &&
      var user := FindByID(db.users, rec.userId).value;
      && Update(db.users, user.(password := newPassword), o.hasher).Ok?
      && r.db.users == Update(db.users, user.(password := newPassword), o.hasher).value.1
      && r.db.tokens == DeleteByUserIDAndType(db.tokens, user.id, TypeResetPassword, false).value)
    ensures VerifyToken(db.tokens, token, TypeResetPassword).Some?
            && FindByID(db.users, VerifyToken(db.tokens, token, TypeResetPassword).value.userId).None?
            ==> r.result == Err(InvalidUserData) && r.db == db
    ensures VerifyToken(db.tokens, token, TypeResetPassword).Some?
            && FindByID(db.users, VerifyToken(db.tokens, token, TypeResetPassword).value.userId).Some?
            ==> (
      var user := FindByID(db.users, VerifyToken(db.tokens, token, TypeResetPassword).value.userId).value;
      var saved := Update(db.users, user.(password := newPassword), o.hasher);
      && (saved.Err? ==> r.result == Err(saved.error) && r.db == db)
      && (saved.Ok? ==> r.db.users == saved.value.1 && (r.result.Ok? <==> !o.faults.tokenDelete))
      && (saved.Ok? && o.faults.tokenDelete ==> r.db.tokens == db.tokens))
  {
    match VerifyToken(db.tokens, token, TypeResetPassword)
    case None => Outcome(Err(ResetFailed), db, [])
    case Some(rec) =>
      match FindByID(db.users, rec.userId)
      case None => Outcome(Err(InvalidUserData), db, [])
      case Some(user) =>
        match Update(db.users, user.(password := newPassword), o.hasher)
        case Err(e) => Outcome(Err(e), db, [])
        case Ok((_, users)) =>
          match DeleteByUserIDAndType(db.tokens, user.id, TypeResetPassword, o.faults.tokenDelete)
          case Err(e) => Outcome(Err(e), db.(users := users), [])
          case Ok(ts) => Outcome(Ok(()), Db(users, ts), [])
  }

  /** `SendVerificationEmail`: for a stored user, a verify token is signed, stored with expiry
      now + the verify lifetime, and mailed. */
  function SendVerificationEmail(db: Db, cfg: Config, o: Oracles, userId: string): (r: Outcome<Unit>)
    ensures r.db.users == db.users
    ensures FindByID(db.users, userId).None? ==> r.result == Err(RecordNotFound) && r.db == db && r.sent == []
    ensures r.sent != [] ==> (
      FindByID(db.users, userId).Some? &&
      var user := FindByID(db.users, userId).value;
      o.codec.generate(Claims(user.id, user.role, TypeVerifyEmail), cfg.jwt.verifyEmailExpiration, cfg.jwt.secret).Ok? &&
      var signed := o.codec.generate(Claims(user.id, user.role, TypeVerifyEmail), cfg.jwt.verifyEmailExpiration, cfg.jwt.secret).value;
      && r.sent == [Mail(VerificationMail, user.email, signed.token)]
      && r.db.tokens.rows == db.tokens.rows +
           [TokenRecord(db.tokens.nextId, signed.token, user.id, TypeVerifyEmail, o.now + cfg.jwt.verifyEmailExpiration, false)])
    ensures FindByID(db.users, userId).Some? ==> (
      var user := FindByID(db.users, userId).value;
      (r.sent != [] <==>
         o.codec.generate(Claims(user.id, user.role, TypeVerifyEmail), cfg.jwt.verifyEmailExpiration, cfg.jwt.secret).Ok?
         && !o.faults.tokenCreate))
    ensures r.sent != [] ==> r.result == Deliver(cfg, o.faults)
    ensures r.sent == [] ==> r.db == db && r.result.Err?
  {
    match FindByID(db.users, userId)
    case None => Outcome(Err(RecordNotFound), db, [])
    case Some(user) =>
      var ttl := cfg.jwt.verifyEmailExpiration;
      match o.codec.generate(Claims(user.id, user.role, TypeVerifyEmail), ttl, cfg.jwt.secret)
      case Err(e) => Outcome(Err(e), db, [])
      case Ok(signed) =>
        match SaveToken(db.tokens, signed.token, user.id, o.now + ttl, TypeVerifyEmail, o.faults.tokenCreate)
        case Err(e) => Outcome(Err(e), db, [])
        case Ok(ts) => Outcome(Deliver(cfg, o.faults), db.(tokens := ts), [Mail(VerificationMail, user.email, signed.token)])
  }

  /** `VerifyEmail`: consults only the store. On success the user is marked verified and every
      verify record of that user is removed. */
  function VerifyEmail(db: Db, o: Oracles, token: string): (r: Outcome<Unit>)
    ensures r.sent == []
    ensures VerifyToken(db.tokens, token, TypeVerifyEmail).None? ==> r.result == Err(VerificationFailed) && r.db == db
    ensures r.result.Ok? ==> (
      VerifyToken(db.tokens, token, TypeVerifyEmail).Some? &&
      var rec := VerifyToken(db.tokens, token, TypeVerifyEmail).value;
      FindByID(db.users, rec.userId).Some? &&
      var user := FindByID(db.users, rec.userId).value;
      && Update(db.users, user.(isEmailVerified := true), o.hasher).Ok?
      && r.db.users == Update(db.users, user.(isEmailVerified := true), o.hasher).value.1
      && r.db.tokens == DeleteByUserIDAndType(db.tokens, user.id, TypeVerifyEmail, false).value)
    ensures VerifyToken(db.tokens, token, TypeVerifyEmail).Some?
            && FindByID(db.users, VerifyToken(db.tokens, token, TypeVerifyEmail).value.userId).None?
            ==> r.result == Err(VerificationFailed) && r.db == db
    ensures VerifyToken(db.tokens, token, TypeVerifyEmail).Some?
            && FindByID(db.users, VerifyToken(db.tokens, token, TypeVerifyEmail).value.userId).Some?
            ==> (
      var user := FindByID(db.users, VerifyToken(db.tokens, token, TypeVerifyEmail).value.userId).value;
      var saved := Update(db.users, user.(isEmailVerified := true), o.hasher);
      && (saved.Err? ==> r.result == Err(saved.error) && r.db == db)
      && (saved.Ok? ==> r.db.users == saved.value.1 && (r.result.Ok? <==> !o.faults.tokenDelete))
      && (saved.Ok? && o.faults.tokenDelete ==> r.db.tokens == db.tokens))
  {
    match VerifyToken(db.tokens, token, TypeVerifyEmail)
    case None => Outcome(Err(VerificationFailed), db, [])
    case Some(rec) =>
      match FindByID(db.users, rec.userId)
      case None => Outcome(Err(VerificationFailed), db, [])
      case Some(user) =>
        match Update(db.users, user.(isEmailVerified := true), o.hasher)
        case Err(e) => Outcome(Err(e), db, [])
        case Ok((_, users)) =>
          match DeleteByUserIDAndType(db.tokens, user.id, TypeVerifyEmail, o.faults.tokenDelete)
          case Err(e) => Outcome(Err(e), db.(users := users), [])
          case Ok(ts) => Outcome(Ok(()), Db(users, ts), [])
  }
}

=== FILE: call_context.dfy ===
/** What an interceptor or handler can read from a call: incoming metadata, the peer address, and
    the identity the authentication stage attached. */
module CallContext {
  import opened Results

  /** Incoming metadata: lower-case keys to their list of values. */
  type Metadata = map<string, seq<string>>

  /** `userId` and `role` are the two context values `AuthInterceptor` sets; they are absent
      until it does. */
  datatype Ctx = Ctx(metadata: Option<Metadata>, peer: Option<string>, userId: Option<string>, role: Option<string>)

  /** `md[key]` / `md.Get(key)`: the values under a key, empty when the key is absent. */
  function Values(md: Metadata, key: string): seq<string>
  {
    if key in md then md[key] else []
  }
}

=== FILE: chain.dfy ===
/** The unary interceptor chain the server installs (cmd/server/main.go). Each stage either
    forwards the call, with a possibly enriched context, to the next stage or ends it. */
module Chain {
  import opened Results
  import opened CallContext
  import opened Jwt
  import opened AuthInterceptor
  import RateLimiter

  /** Recovery and Logger only observe the call: neither changes the outcome of a call that
      does not panic. */
  datatype Stage = Recovery | Logger | RateLimit | Auth

  /** What the stages need to know about one incoming call. `admitted` is the caller's token
      bucket's answer for this call. */
  datatype Call = Call(ctx: Ctx, fullMethod: string, secret: string, codec: Codec,
                       splitHost: string -> Option<string>, admitted: bool)

  /** The live chain: Recovery, Logger, Auth, with the rate limiter commented out. */
  const LiveStages: seq<Stage> := [Recovery, Logger, Auth]

  /** The chain with the rate limiter switched back on where the comment places it. */
  const RateLimitedStages: seq<Stage> := [Recovery, Logger, RateLimit, Auth]

  function Step(s: Stage, reg: RateLimiter.Registry, c: Call, ctx: Ctx): (r: (Verdict, RateLimiter.Registry))
    ensures s != RateLimit ==> r.1 == reg
    ensures s in {Recovery, Logger} ==> r.0 == Forward(ctx)
  {
    match s
    case Recovery => (Forward(ctx), reg)
    case Logger => (Forward(ctx), reg)
    case RateLimit => RateLimiter.RateLimit(reg, ctx, c.splitHost, c.admitted)
    case Auth => (Authenticate(ctx, c.fullMethod, c.secret, c.codec), reg)
  }

  /** Runs the stages in order; the first rejection ends the call, and a call every stage
      forwards reaches the handler with the last context. */
  function Run(stages: seq<Stage>, reg: RateLimiter.Registry, c: Call, ctx: Ctx): (r: (Verdict, RateLimiter.Registry))
    ensures RateLimit !in stages ==> r.1 == reg
    ensures stages == [] ==> r.0 == Forward(ctx)
    decreases |stages|
  {
    if stages == [] then (Forward(ctx), reg)
    else
      var (v, reg1) := Step(stages[0], reg, c, ctx);
      match v
      case Reject(st) => (Reject(st), reg1)
      case Forward(ctx1) => Run(stages[1..], reg1, c, ctx1)
  }

  /** Running two chains back to back is running their concatenation: the second starts from
      the first's registry and context, and never runs once the first has rejected. */
  lemma {:induction false} RunAppend(a: seq<Stage>, b: seq<Stage>, reg: RateLimiter.Registry, c: Call, ctx: Ctx)
    ensures Run(a + b, reg, c, ctx) ==
      (var (v, reg1) := Run(a, reg, c, ctx);
       if v.Reject? then (v, reg1) else Run(b, reg1, c, v.ctx))
    decreases |a|
  {
    if a == [] {
      assert a + b == b;
    } else {
      assert (a + b)[0] == a[0] && (a + b)[1..] == a[1..] + b;
      var (v, reg1) := Step(a[0], reg, c, ctx);
      if v.Forward? {
        RunAppend(a[1..], b, reg1, c, v.ctx);
      }
    }
  }

  /** Stages that only observe can be dropped from the front of any chain. */
  lemma {:induction false} ObserversAreTransparent(pre: seq<Stage>, rest: seq<Stage>, reg: RateLimiter.Registry, c: Call, ctx: Ctx)
    requires forall i :: 0 <= i < |pre| ==> pre[i] == Recovery || pre[i] == Logger
    ensures Run(pre + rest, reg, c, ctx) == Run(rest, reg, c, ctx)
    decreases |pre|
  {
    if pre != [] {
      var whole := pre + rest;
      assert whole[0] == pre[0] && whole[1..] == pre[1..] + rest;
      ObserversAreTransparent(pre[1..], rest, reg, c, ctx);
    } else {
      assert pre + rest == rest;
    }
  }

  /** As deployed, a call's fate is exactly the authentication stage's verdict. */
  lemma LiveChainIsAuthentication(reg: RateLimiter.Registry, c: Call)
    ensures Run(LiveStages, reg, c, c.ctx) == (Authenticate(c.ctx, c.fullMethod, c.secret, c.codec), reg)
  {
    ObserversAreTransparent([Recovery, Logger], [Auth], reg, c, c.ctx);
    assert LiveStages == [Recovery, Logger] + [Auth];
  }

  /** With the limiter enabled, a refused call is ResourceExhausted before any token is looked at,
      and a public method is still forwarded unchanged when admitted. */
  lemma RateLimitBeforeAuthentication(reg: RateLimiter.Registry, c: Call)
    ensures !c.admitted ==> Run(RateLimitedStages, reg, c, c.ctx).0 == Reject(RateLimiter.TooMany)
    ensures c.admitted ==>
      Run(RateLimitedStages, reg, c, c.ctx).0 == Authenticate(c.ctx, c.fullMethod, c.secret, c.codec)
    ensures Run(RateLimitedStages, reg, c, c.ctx).1 == RateLimiter.GetLimiter(reg, RateLimiter.ClientKey(c.ctx, c.splitHost)).1
  {
    ObserversAreTransparent([Recovery, Logger], [RateLimit, Auth], reg, c, c.ctx);
    assert RateLimitedStages == [Recovery, Logger] + [RateLimit, Auth];
  }
}

=== FILE: config.dfy ===
/** Configuration loading (config/config.go) over an explicit environment map. */
module Config {
  import opened Results
  import opened Decimal

  /** The process environment: `os.LookupEnv` finds a key exactly when it is in the map. */
  type Env = map<string, string>

  const Nanosecond: int := 1
  const Minute: int := 60_000_000_000
  const Hour: int := 3_600_000_000_000

  datatype DatabaseConfig = DatabaseConfig(
    driver: string, host: string, port: string, user: string,
    password: string, name: string, sslMode: string)

  /** Token lifetimes are `time.Duration` values: signed 64-bit nanosecond counts. */
  datatype JwtConfig = JwtConfig(
    secret: string,
    accessExpiration: int,
    refreshExpiration: int,
    resetPasswordExpiration: int,
    verifyEmailExpiration: int)

  datatype SmtpConfig = SmtpConfig(host: string, port: int, username: string, password: string, from: string)

  datatype Config = Config(
    env: string, grpcPort: string, gatewayPort: string,
    database: DatabaseConfig, jwt: JwtConfig, smtp: SmtpConfig)

  /** `getEnv`: a present variable wins even when it is empty; the fallback is only for absent keys. */
  function GetEnv(env: Env, key: string, fallback: string): (v: string)
    ensures key in env ==> v == env[key]
    ensures key !in env ==> v == fallback
  {
    if key in env then env[key] else fallback
  }

  /** `getEnvAsInt`: the variable read as an empty-defaulted string and parsed with `Atoi`. */
  function GetEnvAsInt(env: Env, key: string, fallback: int): (v: int)
    ensures key !in env ==> v == fallback
    ensures key in env && IsDecimal(env[key]) && IsInt64(DecimalValue(env[key])) ==> v == DecimalValue(env[key])
    ensures key in env && !IsDecimal(env[key]) ==> v == fallback
    ensures key in env && IsDecimal(env[key]) && !IsInt64(DecimalValue(env[key])) ==> v == fallback
  {
    match Atoi(GetEnv(env, key, ""))
    case Some(n) => n
    case None => fallback
  }

  /** `time.Duration(n) * time.Minute`, wrapping like Go's int64 multiplication. */
  function MinutesDuration(n: int): (d: int)
    ensures IsInt64(d)
    ensures Congruent64(n * Minute, d)
  {
    var w := Wrap64(n);
    Congruent64Scale(n, w, Minute);
    Congruent64Trans(n * Minute, w * Minute, Wrap64(w * Minute));
    Wrap64(w * Minute)
  }

  /** `time.Duration(n) * 24 * time.Hour`: two int64 multiplications, each of which may wrap. */
  function DaysDuration(n: int): (d: int)
    ensures IsInt64(d)
    ensures Congruent64(n * 24 * Hour, d)
  {
    var w1 := Wrap64(n);
    var w2 := Wrap64(w1 * 24);
    Congruent64Scale(n, w1, 24);
    Congruent64Trans(n * 24, w1 * 24, w2);
    Congruent64Scale(n * 24, w2, Hour);
    Congruent64Trans(n * 24 * Hour, w2 * Hour, Wrap64(w2 * Hour));
    Wrap64(w2 * Hour)
  }

  /** `LoadConfig` with the environment (after the optional `.env` file) passed in. */
  function LoadConfig(env: Env): (c: Config)
    ensures c.jwt.secret == (if "JWT_SECRET" in env then env["JWT_SECRET"] else "super_secret_key_change_me")
    ensures c.database.driver == (if "DB_DRIVER" in env then env["DB_DRIVER"] else "sqlite")
    ensures c.smtp.host == (if "SMTP_HOST" in env then env["SMTP_HOST"] else "smtp.example.com")
    ensures "SMTP_PORT" !in env ==> c.smtp.port == 587
    ensures IsInt64(c.jwt.accessExpiration) && IsInt64(c.jwt.refreshExpiration)
    ensures IsInt64(c.jwt.resetPasswordExpiration) && IsInt64(c.jwt.verifyEmailExpiration)
    ensures Congruent64(GetEnvAsInt(env, "JWT_ACCESS_EXPIRATION_MINUTES", 30) * Minute, c.jwt.accessExpiration)
    ensures Congruent64(GetEnvAsInt(env, "JWT_REFRESH_EXPIRATION_DAYS", 30) * 24 * Hour, c.jwt.refreshExpiration)
    ensures Congruent64(GetEnvAsInt(env, "JWT_RESET_PASSWORD_EXPIRATION_MINUTES", 15) * Minute, c.jwt.resetPasswordExpiration)
    ensures Congruent64(GetEnvAsInt(env, "JWT_VERIFY_EMAIL_EXPIRATION_MINUTES", 15) * Minute, c.jwt.verifyEmailExpiration)
  {
    Config(
      GetEnv(env, "GO_ENV", "development"),
      GetEnv(env, "GRPC_PORT", "50051"),
      GetEnv(env, "GATEWAY_PORT", "8080"),
      DatabaseConfig(
        GetEnv(env, "DB_DRIVER", "sqlite"),
        GetEnv(env, "DB_HOST", "localhost"),
        GetEnv(env, "DB_PORT", "5432"),
        GetEnv(env, "DB_USER", "postgres"),
        GetEnv(env, "DB_PASSWORD", ""),
        GetEnv(env, "DB_NAME", "starter_kit_grpc_db"),
        GetEnv(env, "DB_SSLMODE", "disable")),
      JwtConfig(
        GetEnv(env, "JWT_SECRET", "super_secret_key_change_me"),
        MinutesDuration(GetEnvAsInt(env, "JWT_ACCESS_EXPIRATION_MINUTES", 30)),
        DaysDuration(GetEnvAsInt(env, "JWT_REFRESH_EXPIRATION_DAYS", 30)),
        MinutesDuration(GetEnvAsInt(env, "JWT_RESET_PASSWORD_EXPIRATION_MINUTES", 15)),
        MinutesDuration(GetEnvAsInt(env, "JWT_VERIFY_EMAIL_EXPIRATION_MINUTES", 15))),
      SmtpConfig(
        GetEnv(env, "SMTP_HOST", "smtp.example.com"),
        GetEnvAsInt(env, "SMTP_PORT", 587),
        GetEnv(env, "SMTP_USERNAME", "user"),
        GetEnv(env, "SMTP_PASSWORD", "pass"),
        GetEnv(env, "EMAIL_FROM", "no-reply@example.com")))
  }

  /** A variable set to the empty string falls back in `getEnvAsInt` but not in `getEnv`. */
  lemma EmptyValueFallsBack(env: Env, key: string, fallback: int)
    requires key in env && env[key] == ""
    ensures GetEnvAsInt(env, key, fallback) == fallback
    ensures GetEnv(env, key, "x") == ""
  {
  }

  /** Signed values parse: "-5" reads as -5 and "+7" as 7. */
  lemma SignedValuesAccepted(env: Env, key: string, fallback: int)
    ensures key in env && env[key] == "-5" ==> GetEnvAsInt(env, key, fallback) == -5
    ensures key in env && env[key] == "+7" ==> GetEnvAsInt(env, key, fallback) == 7
  {
    assert DigitsValue("5") == 5 by { assert "5"[..0] == ""; }
    assert DigitsValue("7") == 7 by { assert "7"[..0] == ""; }
    assert "-5"[1..] == "5";
    assert "+7"[1..] == "7";
  }

  /** Minute lifetimes are exact while `n` minutes fit in an int64 nanosecond count. */
  lemma MinutesExact(n: int)
    requires -153_722_867 <= n <= 153_722_867
    ensures MinutesDuration(n) == n * Minute
  {
  }

  /** Day lifetimes are exact up to 106751 days. */
  lemma DaysExact(n: int)
    requires -106_751 <= n <= 106_751
    ensures DaysDuration(n) == n * 24 * Hour
  {
  }

  /** One day more and the refresh lifetime wraps to a negative duration. */
  lemma DaysOverflow()
    ensures DaysDuration(106_752) < 0
  {
  }

  /** With nothing set, the documented defaults apply, and the mail host is non-empty so
      notifications are really sent. */
  lemma Defaults()
    ensures var c := LoadConfig(map[]);
      && c.env == "development"
      && c.grpcPort == "50051"
      && c.database.driver == "sqlite"
      && c.smtp.host == "smtp.example.com" && c.smtp.host != ""
      && c.smtp.port == 587
      && c.jwt.accessExpiration == 30 * Minute
      && c.jwt.refreshExpiration == 30 * 24 * Hour
      && c.jwt.resetPasswordExpiration == 15 * Minute
      && c.jwt.verifyEmailExpiration == 15 * Minute
  {
    MinutesExact(30);
    MinutesExact(15);
    DaysExact(30);
  }
}

=== FILE: decimal.dfy ===
/** Go's fixed-width integer arithmetic and the decimal conversions of `strconv`
    (`Atoi` reads configuration values and the `x-http-code` header, `Itoa` writes that header). */
module Decimal {
  import opened Results

  const Int32Min: int := -0x8000_0000
  const Int32Max: int := 0x7fff_ffff
  const Int64Min: int := -0x8000_0000_0000_0000
  const Int64Max: int := 0x7fff_ffff_ffff_ffff

  predicate IsInt32(x: int) { Int32Min <= x <= Int32Max }
  predicate IsInt64(x: int) { Int64Min <= x <= Int64Max }

  /** Two's-complement wrap-around of a 32-bit signed result (Go `int32` arithmetic). */
  function Wrap32(x: int): (r: int)
    ensures IsInt32(r)
    ensures (x - r) % 0x1_0000_0000 == 0
    ensures IsInt32(x) ==> r == x
  {
    (x - Int32Min) % 0x1_0000_0000 + Int32Min
  }

  /** Two's-complement wrap-around of a 64-bit signed result (Go `int64`, `time.Duration`). */
  function Wrap64(x: int): (r: int)
    ensures IsInt64(r)
    ensures (x - r) % 0x1_0000_0000_0000_0000 == 0
    ensures IsInt64(x) ==> r == x
  {
    (x - Int64Min) % 0x1_0000_0000_0000_0000 + Int64Min
  }

  /** Two integers Go's int64 cannot tell apart: they differ by a multiple of 2^64. */
  predicate Congruent64(x: int, y: int)
  {
    (x - y) % 0x1_0000_0000_0000_0000 == 0
  }

  /** Scaling both sides by the same factor keeps them congruent modulo 2^64. */
  lemma Congruent64Scale(x: int, y: int, c: int)
    requires Congruent64(x, y)
    ensures Congruent64(x * c, y * c)
  {
    var m := 0x1_0000_0000_0000_0000;
    var k := (x - y) / m;
    assert x - y == k * m;
    assert x * c - y * c == (x - y) * c;
    assert (x - y) * c == (k * c) * m;
  }

  lemma Congruent64Trans(x: int, y: int, z: int)
    requires Congruent64(x, y) && Congruent64(y, z)
    ensures Congruent64(x, z)
  {
    var m := 0x1_0000_0000_0000_0000;
    var a := (x - y) / m;
    var b := (y - z) / m;
    assert x - y == a * m && y - z == b * m;
    assert x - z == (a + b) * m;
  }

  /** Go's integer division by a positive divisor, which truncates toward zero (Dafny's `/`
      rounds toward negative infinity for a negative dividend). */
  function Quot(a: int, b: int): (q: int)
    requires b > 0
    ensures a >= 0 ==> q * b <= a < (q + 1) * b
    ensures a < 0 ==> (q - 1) * b < a <= q * b
  {
    if a >= 0 then a / b else -((-a) / b)
  }

  predicate IsDigit(c: char) { '0' <= c <= '9' }

  predicate AllDigits(s: string) { forall i :: 0 <= i < |s| ==> IsDigit(s[i]) }

  function DigitValue(c: char): nat
    requires IsDigit(c)
  {
    c as int - '0' as int
  }

  /** The value of a run of decimal digits, most significant first. */
  function DigitsValue(s: string): nat
    requires AllDigits(s)
    decreases |s|
  {
    if |s| == 0 then 0 else DigitsValue(s[..|s| - 1]) * 10 + DigitValue(s[|s| - 1])
  }

  /** `s` is an optional sign followed by at least one decimal digit. */
  predicate IsDecimal(s: string)
  {
    && |s| > 0
    && var body := if s[0] == '-' || s[0] == '+' then s[1..] else s;
       |body| > 0 && AllDigits(body)
  }

  /** The signed value written by a decimal string. */
  function DecimalValue(s: string): int
    requires IsDecimal(s)
  {
    if s[0] == '-' then -(DigitsValue(s[1..]) as int)
    else if s[0] == '+' then DigitsValue(s[1..])
    else DigitsValue(s)
  }

  /** `strconv.Atoi` on a 64-bit platform: an optional sign, decimal digits, no spaces, no
      underscores, and the value must fit in `int`; anything else is an error. */
  function Atoi(s: string): (r: Option<int>)
    ensures r.Some? <==> IsDecimal(s) && IsInt64(DecimalValue(s))
    ensures r.Some? ==> r.value == DecimalValue(s)
  {
    if |s| == 0 then None
    else
      var body := if s[0] == '-' || s[0] == '+' then s[1..] else s;
      if |body| == 0 || !AllDigits(body) then None
      else
        var v: int := if s[0] == '-' then -(DigitsValue(body) as int) else DigitsValue(body);
        if IsInt64(v) then Some(v) else None
  }

  function DigitChar(d: nat): (c: char)
    requires d < 10
    ensures IsDigit(c) && DigitValue(c) == d
  {
    ('0' as int + d) as char
  }

  /** The shortest decimal digits of `m`. */
  function DigitsOf(m: nat): (s: string)
    ensures |s| >= 1 && AllDigits(s)
    decreases m
  {
    if m < 10 then [DigitChar(m)] else DigitsOf(m / 10) + [DigitChar(m % 10)]
  }

  /** `strconv.Itoa`: a minus sign for negative values, then the digits of the magnitude. */
  function Itoa(n: int): (s: string)
    ensures IsDecimal(s)
  {
    if n < 0 then "-" + DigitsOf(-n) else DigitsOf(n)
  }

  lemma {:induction false} DigitsRoundTrip(m: nat)
    ensures DigitsValue(DigitsOf(m)) == m
    decreases m
  {
    if m >= 10 {
      DigitsRoundTrip(m / 10);
      var s := DigitsOf(m);
      assert s[..|s| - 1] == DigitsOf(m / 10);
    }
  }

  /** `Atoi` reads back every 64-bit value `Itoa` writes. */
  lemma AtoiItoa(n: int)
    requires IsInt64(n)
    ensures Atoi(Itoa(n)) == Some(n)
  {
    var s := Itoa(n);
    if n < 0 {
      DigitsRoundTrip(-n);
      assert s[1..] == DigitsOf(-n);
    } else {
      DigitsRoundTrip(n);
    }
  }
}

=== FILE: grpc_status.dfy ===
/** The gRPC status codes and errors the handlers and interceptors produce. */
module GrpcStatus {

  datatype Code =
    | OK
    | InvalidArgument
    | NotFound
    | PermissionDenied
    | Unauthenticated
    | ResourceExhausted
    | Internal

  /** `status.Error(code, message)`. */
  datatype Status = Status(code: Code, message: string)
}

=== FILE: jwt.dfy ===
/** The signed-credential collaborator (pkg/utils/jwt.go) as an oracle: the model never looks
    inside a token; it only passes requests to `generate` and strings to `validate`. */
module Jwt {
  import opened Results

  /** The claims a token binds: subject, role and purpose tag. */
  datatype Claims = Claims(userId: string, role: string, tokenType: string)

  /** A signed token and its expiry instant (nanoseconds since the epoch). */
  datatype Signed = Signed(token: string, expires: int)

  /** `GenerateToken(claims, ttl, secret)` and `ValidateToken(token, secret)`. */
  datatype Codec = Codec(
    generate: (Claims, int, string) -> Result<Signed, string>,
    validate: (string, string) -> Result<Claims, string>)

  /** The round-trip property of the codec for one issued token: validating it under the secret
      it was signed with gives back its claims. */
  predicate RoundTrips(codec: Codec, claims: Claims, ttl: int, secret: string)
  {
    codec.generate(claims, ttl, secret).Ok? ==>
      codec.validate(codec.generate(claims, ttl, secret).value.token, secret) == Ok(claims)
  }

  /** The rejection property for one issued token: under any other secret it does not validate. */
  predicate RejectsOtherSecret(codec: Codec, claims: Claims, ttl: int, secret: string, other: string)
  {
    other != secret && codec.generate(claims, ttl, secret).Ok? ==>
      codec.validate(codec.generate(claims, ttl, secret).value.token, other).Err?
  }
}

=== FILE: models.dfy ===
/** The persisted records (internal/models) and their GORM hooks. */
module Models {
  import opened Results
  import opened Text

  /** A user row. Timestamps are not modelled. */
  datatype User = User(
    id: string,
    name: string,
    email: string,
    password: string,
    role: string,
    isEmailVerified: bool)

  /** A server-side token row; `id` is the auto-increment primary key. */
  datatype TokenRecord = TokenRecord(
    id: nat,
    token: string,
    userId: string,
    tokenType: string,
    expires: int,
    blacklisted: bool)

  /** Purpose tags. "access" is a literal at its two uses; the other three are named constants. */
  const TypeAccess: string := "access"
  const TypeRefresh: string := "refresh"
  const TypeResetPassword: string := "resetPassword"
  const TypeVerifyEmail: string := "verifyEmail"

  /** The role column's default, filled in on insert when the role is empty. */
  const DefaultRole: string := "user"

  /** A password this many UTF-8 bytes long or longer is taken to be a hash already. */
  const HashedLength: nat := 60

  /** The password-hashing collaborator: `HashPassword` (which may fail) and `CheckPassword`. */
  datatype Hasher = Hasher(hash: string -> Result<string, string>, check: (string, string) -> bool)

  /** `BeforeCreate`: an empty id is replaced by a freshly generated one; nothing else changes. */
  function BeforeCreate(u: User, freshId: string): (r: User)
    ensures r.(id := u.id) == u
    ensures u.id != "" ==> r.id == u.id
    ensures u.id == "" ==> r.id == freshId
  {
    if u.id == "" then u.(id := freshId) else u
  }

  /** The length heuristic: only a non-empty password shorter than 60 bytes is hashed. */
  predicate NeedsHash(password: string)
  {
    password != "" && Utf8Length(password) < HashedLength
  }

  /** `BeforeSave`: hashes a short non-empty password; a hashing failure aborts the save. */
  function BeforeSave(u: User, hasher: Hasher): (r: Result<User, string>)
    ensures r.Ok? ==> r.value.(password := u.password) == u
    ensures !NeedsHash(u.password) ==> r == Ok(u)
    ensures NeedsHash(u.password) && hasher.hash(u.password).Ok? ==>
              r == Ok(u.(password := hasher.hash(u.password).value))
    ensures NeedsHash(u.password) && hasher.hash(u.password).Err? ==> r.Err?
  {
    if NeedsHash(u.password) then
      match hasher.hash(u.password)
      case Err(e) => Err(e)
      case Ok(h) => Ok(u.(password := h))
    else Ok(u)
  }

  /** Saving twice is saving once, provided the hash of this password is at least 60 long. */
  lemma BeforeSaveIdempotent(u: User, hasher: Hasher)
    requires hasher.hash(u.password).Ok? ==> Utf8Length(hasher.hash(u.password).value) >= HashedLength
    requires BeforeSave(u, hasher).Ok?
    ensures BeforeSave(BeforeSave(u, hasher).value, hasher) == BeforeSave(u, hasher)
  {
  }

  /** `ComparePassword`: the hasher's check of the plain text against the stored value. */
  function ComparePassword(u: User, plain: string, hasher: Hasher): (r: bool)
    ensures r == hasher.check(plain, u.password)
  {
    hasher.check(plain, u.password)
  }

  /** A password set through the save hook compares equal to itself afterwards, given a hasher
      whose check accepts its own hashes; no other field of the user matters. */
  lemma ComparePasswordAfterSave(u: User, plain: string, hasher: Hasher)
    requires NeedsHash(plain) && hasher.hash(plain).Ok?
    requires hasher.check(plain, hasher.hash(plain).value)
    ensures BeforeSave(u.(password := plain), hasher).Ok?
    ensures ComparePassword(BeforeSave(u.(password := plain), hasher).value, plain, hasher)
  {
  }
}

=== FILE: pagination.dfy ===
/** Paging and sorting scopes (pkg/utils/pagination.go). */
module Pagination {
  import opened Decimal
  import opened Text

  /** `PaginationScope`: page and limit are Go `int32`. */
  datatype PaginationScope = PaginationScope(page: int, limit: int, sort: string)

  /** The `OFFSET` and `LIMIT` a `Paginate` scope applies. */
  datatype Window = Window(offset: int, limit: int)

  /** An `ORDER BY column direction` clause. */
  datatype Order = Order(column: string, descending: bool)

  const DefaultOrder: Order := Order("created_at", true)

  /** The page Paginate uses: anything below 1 becomes 1. */
  function EffectivePage(page: int): (r: int)
    ensures r >= 1
    ensures page >= 1 ==> r == page
  {
    if page < 1 then 1 else page
  }

  /** The limit Paginate uses: 10 below 1, 100 above 100, otherwise as given. */
  function EffectiveLimit(limit: int): (r: int)
    ensures 1 <= r <= 100
    ensures limit < 1 ==> r == 10
    ensures limit > 100 ==> r == 100
    ensures 1 <= limit <= 100 ==> r == limit
  {
    if limit < 1 then 10 else if limit > 100 then 100 else limit
  }

  /** `Paginate`: the offset `(page-1)*limit` is computed in int32 and so wraps for huge pages. */
  function Paginate(p: PaginationScope): (w: Window)
    requires IsInt32(p.page) && IsInt32(p.limit)
    ensures 1 <= w.limit <= 100 && w.limit == EffectiveLimit(p.limit)
    ensures IsInt32(w.offset)
    ensures (w.offset - (EffectivePage(p.page) - 1) * w.limit) % 0x1_0000_0000 == 0
  {
    var page := EffectivePage(p.page);
    var limit := EffectiveLimit(p.limit);
    Window(Wrap32((page - 1) * limit), limit)
  }

  /** While the product fits in int32 the offset skips exactly the earlier pages. */
  lemma OffsetSkipsEarlierPages(p: PaginationScope)
    requires IsInt32(p.page) && IsInt32(p.limit)
    requires (EffectivePage(p.page) - 1) * EffectiveLimit(p.limit) <= Int32Max
    ensures Paginate(p).offset == (EffectivePage(p.page) - 1) * EffectiveLimit(p.limit)
    ensures Paginate(p).offset >= 0
  {
    var page := EffectivePage(p.page);
    var limit := EffectiveLimit(p.limit);
    assert (page - 1) * limit >= 0 by {
      assert page - 1 >= 0 && limit >= 1;
    }
  }

  /** The largest page with the largest limit overflows to a negative offset. */
  lemma OffsetOverflows()
    ensures Paginate(PaginationScope(Int32Max, 100, "")).offset < 0
  {
  }

  /** The allowed sort names, each mapped to the column of the same name. */
  const AllowedSortFields: map<string, string> :=
    map["id" := "id", "name" := "name", "email" := "email", "role" := "role", "created_at" := "created_at"]

  /** `SortScope`: parses `field:direction`; an empty parameter or a field outside the allowed
      map gives the newest-first default. */
  function SortScope(sort: string, allowed: map<string, string>): (o: Order)
    ensures sort == "" ==> o == DefaultOrder
    ensures o == DefaultOrder || o.column in allowed.Values
  {
    if sort == "" then DefaultOrder
    else
      var parts := Split(sort, ':');
      var descending := |parts| > 1 && Lower(parts[1]) == "desc";
      if parts[0] in allowed then Order(allowed[parts[0]], descending) else DefaultOrder
  }

  /** For `field:direction:rest...` the order is decided by `field` and `direction` alone:
      descending exactly when the direction lower-cases to "desc"; later segments are ignored. */
  lemma SortFieldAndDirection(field: string, direction: string, rest: seq<string>, allowed: map<string, string>)
    requires ':' !in field && ':' !in direction
    requires forall i :: 0 <= i < |rest| ==> ':' !in rest[i]
    ensures var o := SortScope(Join([field, direction] + rest, ':'), allowed);
      && (field in allowed ==> o == Order(allowed[field], Lower(direction) == "desc"))
      && (field !in allowed ==> o == DefaultOrder)
  {
    var parts := [field, direction] + rest;
    JoinThenSplit(parts, ':');
    var s := Join(parts, ':');
    assert s == field + [':'] + Join(parts[1..], ':');
    assert s != "" by { assert |s| > |field|; }
  }

  /** A bare field name sorts ascending when allowed. */
  lemma SortFieldOnly(field: string, allowed: map<string, string>)
    requires ':' !in field && field != ""
    ensures field in allowed ==> SortScope(field, allowed) == Order(allowed[field], false)
    ensures field !in allowed ==> SortScope(field, allowed) == DefaultOrder
  {
    SplitWithoutSeparator(field, ':');
  }
}

=== FILE: rate_limiter.dfy ===
/** The per-client rate-limiter registry and its stage (internal/interceptor/ratelimiter.go).
    The token bucket's own admission decision is an input; the mutex is not modelled. */
module RateLimiter {
  import opened Results
  import opened GrpcStatus
  import opened CallContext
  import opened AuthInterceptor

  /** A token bucket, identified by the serial number the registry gave it when it was created. */
  datatype Limiter = Limiter(serial: nat, rate: int, burst: int)

  /** `IPRateLimiter`: client key to limiter, the configured rate and burst, and how many
      limiters have been created so far. */
  datatype Registry = Registry(ips: map<string, Limiter>, rate: int, burst: int, created: nat)

  /** The interceptor's configuration: 5 requests per second, bursts of 20. */
  const Rate: int := 5
  const Burst: int := 20

  const TooMany: Status := Status(ResourceExhausted, "too many requests")

  /** `NewIPRateLimiter`: an empty registry that hands out limiters with these settings. */
  function NewIPRateLimiter(rate: int, burst: int): (r: Registry)
    ensures Valid(r) && r.ips == map[]
    ensures r.rate == rate && r.burst == burst
  {
    Registry(map[], rate, burst, 0)
  }

  /** Every limiter has the configured settings and its own serial number. */
  predicate Valid(reg: Registry)
  {
    && (forall k :: k in reg.ips ==> reg.ips[k].serial < reg.created)
    && (forall k :: k in reg.ips ==> reg.ips[k].rate == reg.rate && reg.ips[k].burst == reg.burst)
    && (forall k1, k2 :: k1 in reg.ips && k2 in reg.ips && k1 != k2 ==> reg.ips[k1].serial != reg.ips[k2].serial)
  }

  /** `GetLimiter`: the existing limiter for the key, or a new one inserted under it. No entry
      is ever replaced or removed. */
  function GetLimiter(reg: Registry, key: string): (r: (Limiter, Registry))
    ensures key in r.1.ips && r.1.ips[key] == r.0
    ensures key in reg.ips ==> r == (reg.ips[key], reg)
    ensures key !in reg.ips ==>
      && r.0 == Limiter(reg.created, reg.rate, reg.burst)
      && r.1 == reg.(ips := reg.ips[key := r.0], created := reg.created + 1)
    ensures forall k :: k in reg.ips ==> k in r.1.ips && r.1.ips[k] == reg.ips[k]
    ensures r.1.ips.Keys == reg.ips.Keys + {key}
  {
    if key in reg.ips then (reg.ips[key], reg)
    else
      var limiter := Limiter(reg.created, reg.rate, reg.burst);
      (limiter, reg.(ips := reg.ips[key := limiter], created := reg.created + 1))
  }

  /** Asking twice for the same key gives the same limiter, and the second ask changes nothing. */
  lemma GetLimiterTwice(reg: Registry, key: string)
    ensures var (first, reg1) := GetLimiter(reg, key);
      GetLimiter(reg1, key) == (first, reg1)
  {
  }

  /** The registry stays valid, so different keys never share a limiter. */
  lemma GetLimiterKeepsValid(reg: Registry, key: string)
    requires Valid(reg)
    ensures Valid(GetLimiter(reg, key).1)
  {
  }

  /** In the server's registry, built with 5 requests per second and bursts of 20, every client
      gets a limiter with exactly those settings, however many lookups came before. */
  lemma ServerLimitersAreConfigured(reg: Registry, key: string)
    requires Valid(reg) && reg.rate == Rate && reg.burst == Burst
    ensures var (limiter, reg1) := GetLimiter(reg, key);
      && limiter.rate == 5 && limiter.burst == 20
      && Valid(reg1) && reg1.rate == Rate && reg1.burst == Burst
  {
    GetLimiterKeepsValid(reg, key);
  }

  /** `getClientIP`: the first x-forwarded-for value verbatim; else the peer address with its
      port stripped (`splitHost` is `net.SplitHostPort`), or the raw address when that fails;
      else "unknown". */
  function ClientKey(ctx: Ctx, splitHost: string -> Option<string>): (key: string)
    ensures ctx.metadata.Some? && Values(ctx.metadata.value, "x-forwarded-for") != [] ==>
      key == Values(ctx.metadata.value, "x-forwarded-for")[0]
    ensures (ctx.metadata.None? || Values(ctx.metadata.value, "x-forwarded-for") == []) && ctx.peer.Some? ==>
      key == (if splitHost(ctx.peer.value).Some? then splitHost(ctx.peer.value).value else ctx.peer.value)
    ensures (ctx.metadata.None? || Values(ctx.metadata.value, "x-forwarded-for") == []) && ctx.peer.None? ==>
      key == "unknown"
  {
    if ctx.metadata.Some? && |Values(ctx.metadata.value, "x-forwarded-for")| > 0 then
      Values(ctx.metadata.value, "x-forwarded-for")[0]
    else
      match ctx.peer
      case Some(addr) =>
        (match splitHost(addr)
         case Some(host) => host
         case None => addr)
      case None => "unknown"
  }

  /** `RateLimitInterceptor`: looks up (or creates) the caller's limiter; when the bucket refuses
      (`admitted` is its `Allow()` answer) the call ends with ResourceExhausted. The lookup
      happens, and may grow the registry, either way. */
  function RateLimit(reg: Registry, ctx: Ctx, splitHost: string -> Option<string>, admitted: bool)
    : (r: (Verdict, Registry))
    ensures r.1 == GetLimiter(reg, ClientKey(ctx, splitHost)).1
    ensures !admitted ==> r.0 == Reject(TooMany)
    ensures admitted ==> r.0 == Forward(ctx)
  {
    var (_, reg1) := GetLimiter(reg, ClientKey(ctx, splitHost));
    if !admitted then (Reject(TooMany), reg1) else (Forward(ctx), reg1)
  }
}

=== FILE: results.dfy ===
/** Failure-carrying values shared by every layer of the model. */
module Results {

  /** A value that may be absent (Go's `nil` pointer or a missing map key). */
  datatype Option<+T> = None | Some(value: T)

  /** A value or an error, as Go's `(T, error)` return pair. */
  datatype Result<+T, +E> = Ok(value: T) | Err(error: E)

  /** Go's `error` result for operations that return nothing else. */
  type Unit = ()
}

=== FILE: roles.dfy ===
/** Authorization guards the handlers call (internal/interceptor/roles.go). */
module Roles {
  import opened Results
  import opened GrpcStatus
  import opened CallContext

  const NoUserId: Status := Status(Unauthenticated, "user id not found in context")
  const NoRole: Status := Status(Unauthenticated, "role not found in context")
  const AdminsOnly: Status := Status(PermissionDenied, "forbidden: admins only")

  /** `GetUserIDFromContext`: an absent or empty id is Unauthenticated. */
  function GetUserIDFromContext(ctx: Ctx): (r: Result<string, Status>)
    ensures r.Ok? <==> ctx.userId.Some? && ctx.userId.value != ""
    ensures r.Ok? ==> r.value == ctx.userId.value
    ensures r.Err? ==> r.error == NoUserId
  {
    match ctx.userId
    case Some(id) => if id == "" then Err(NoUserId) else Ok(id)
    case None => Err(NoUserId)
  }

  /** `AuthorizeAdmin`: Unauthenticated only without a role; any role but exactly "admin",
      the empty role included, is PermissionDenied. */
  function AuthorizeAdmin(ctx: Ctx): (r: Result<Unit, Status>)
    ensures ctx.role.None? ==> r == Err(NoRole)
    ensures ctx.role.Some? ==> (r.Ok? <==> ctx.role.value == "admin")
    ensures ctx.role.Some? && r.Err? ==> r.error == AdminsOnly
  {
    match ctx.role
    case None => Err(NoRole)
    case Some(role) => if role != "admin" then Err(AdminsOnly) else Ok(())
  }

  /** `AuthorizeAdminOrSelf`: the caller's own id passes whatever the role; a missing id fails
      even for an admin; otherwise the admin rule decides. */
  function AuthorizeAdminOrSelf(ctx: Ctx, targetId: string): (r: Result<Unit, Status>)
    ensures GetUserIDFromContext(ctx).Err? ==> r == Err(NoUserId)
    ensures GetUserIDFromContext(ctx) == Ok(targetId) ==> r.Ok?
    ensures GetUserIDFromContext(ctx).Ok? && GetUserIDFromContext(ctx).value != targetId ==> r == AuthorizeAdmin(ctx)
  {
    match GetUserIDFromContext(ctx)
    case Err(e) => Err(e)
    case Ok(userId) => if userId == targetId then Ok(()) else AuthorizeAdmin(ctx)
  }

  /** For an authenticated caller: an admin may act on any target; a "user" only on itself, and
      is denied elsewhere. */
  lemma SelfOrAdmin(ctx: Ctx, targetId: string)
    requires ctx.userId.Some? && ctx.userId.value != ""
    ensures ctx.role == Some("admin") ==> AuthorizeAdminOrSelf(ctx, targetId).Ok?
    ensures ctx.role == Some("user") ==>
      (AuthorizeAdminOrSelf(ctx, targetId).Ok? <==> targetId == ctx.userId.value)
    ensures ctx.role == Some("user") && targetId != ctx.userId.value ==>
      AuthorizeAdminOrSelf(ctx, targetId) == Err(AdminsOnly)
  {
  }
}

=== FILE: seqs.dfy ===
/** Generic sequence helpers used by the stores: filtering, first match and key uniqueness. */
module Seqs {
  import opened Results

  /** The elements of `s` that satisfy `p`, in their original order (SQL `WHERE`, `DELETE`). */
  function Filter<T(==)>(s: seq<T>, p: T -> bool): (r: seq<T>)
    ensures |r| <= |s|
    ensures forall i :: 0 <= i < |r| ==> r[i] in s && p(r[i])
    ensures forall i :: 0 <= i < |s| && p(s[i]) ==> s[i] in r
    decreases |s|
  {
    if |s| == 0 then []
    else (if p(s[0]) then [s[0]] else []) + Filter(s[1..], p)
  }

  /** Index of the first element at or after `k` that satisfies `p`. */
  function FindFrom<T>(s: seq<T>, p: T -> bool, k: nat): (r: Option<nat>)
    requires k <= |s|
    ensures r.Some? ==> k <= r.value < |s| && p(s[r.value])
    ensures r.Some? ==> forall j :: k <= j < r.value ==> !p(s[j])
    ensures r.None? ==> forall j :: k <= j < |s| ==> !p(s[j])
    decreases |s| - k
  {
    if k == |s| then None
    else if p(s[k]) then Some(k)
    else FindFrom(s, p, k + 1)
  }

  /** The first element of `s` that satisfies `p` (GORM's `First` on a table kept in insertion order). */
  function First<T(==)>(s: seq<T>, p: T -> bool): (r: Option<T>)
    ensures r.Some? ==> r.value in s && p(r.value)
    ensures r.None? <==> forall j :: 0 <= j < |s| ==> !p(s[j])
  {
    match FindFrom(s, p, 0)
    case None => None
    case Some(i) => Some(s[i])
  }

  /** No two elements of `s` share a key (a primary key or a unique index). */
  predicate Distinct<T, K(==)>(s: seq<T>, key: T -> K)
    decreases |s|
  {
    |s| == 0 || ((forall j :: 1 <= j < |s| ==> key(s[j]) != key(s[0])) && Distinct(s[1..], key))
  }

  /** Two elements of a key-distinct sequence with the same key are the same element. */
  lemma {:induction false} DistinctKeyDeterminesElement<T, K>(s: seq<T>, key: T -> K, a: T, b: T)
    requires Distinct(s, key)
    requires a in s && b in s && key(a) == key(b)
    ensures a == b
    decreases |s|
  {
    if a != s[0] && b != s[0] {
      assert a in s[1..] && b in s[1..];
      DistinctKeyDeterminesElement(s[1..], key, a, b);
    }
  }

  /** Removing elements keeps keys distinct. */
  lemma {:induction false} DistinctFilter<T, K>(s: seq<T>, key: T -> K, p: T -> bool)
    requires Distinct(s, key)
    ensures Distinct(Filter(s, p), key)
    decreases |s|
  {
    if |s| > 0 {
      DistinctFilter(s[1..], key, p);
      var rest := Filter(s[1..], p);
      if p(s[0]) {
        var r := [s[0]] + rest;
        assert r[1..] == rest;
        forall j | 1 <= j < |r|
          ensures key(r[j]) != key(r[0])
        {
          assert r[j] in rest;
          assert r[j] in s[1..];
          var k :| 0 <= k < |s[1..]| && s[1..][k] == r[j];
          assert s[k + 1] == r[j];
        }
      } else {
        assert Filter(s, p) == rest;
      }
    }
  }

  /** Appending an element whose key is new keeps keys distinct. */
  lemma {:induction false} DistinctAppend<T, K>(s: seq<T>, key: T -> K, x: T)
    requires Distinct(s, key)
    requires forall j :: 0 <= j < |s| ==> key(s[j]) != key(x)
    ensures Distinct(s + [x], key)
    decreases |s|
  {
    if |s| > 0 {
      assert (s + [x])[1..] == s[1..] + [x];
      DistinctAppend(s[1..], key, x);
    }
  }

  /** The recursive definition of distinct keys agrees with the pairwise one. */
  lemma {:induction false} DistinctPairwise<T, K>(s: seq<T>, key: T -> K)
    ensures Distinct(s, key) <==> forall i, j :: 0 <= i < j < |s| ==> key(s[i]) != key(s[j])
    decreases |s|
  {
    if |s| > 0 {
      DistinctPairwise(s[1..], key);
      if forall i, j :: 0 <= i < j < |s| ==> key(s[i]) != key(s[j]) {
        forall i, j | 0 <= i < j < |s[1..]|
          ensures key(s[1..][i]) != key(s[1..][j])
        {
          assert s[1..][i] == s[i + 1] && s[1..][j] == s[j + 1];
        }
      }
      if Distinct(s, key) {
        forall i, j | 0 <= i < j < |s|
          ensures key(s[i]) != key(s[j])
        {
          if i > 0 {
            assert s[1..][i - 1] == s[i] && s[1..][j - 1] == s[j];
          }
        }
      }
    }
  }
}

=== FILE: service_errors.dfy ===
/** The error texts the services return (internal/service), shared by the handlers that pass
    them on to the caller. */
module ServiceErrors {
  const EmailTaken: string := "email already taken"
  const BadCredentials: string := "incorrect email or password"
  const TokenNotFound: string := "token not found"
  const PleaseAuthenticate: string := "please authenticate"
  const InvalidToken: string := "invalid token"
  const UserNotFound: string := "user not found"
  const ResetFailed: string := "password reset failed"
  const InvalidUserData: string := "invalid user data"
  const VerificationFailed: string := "email verification failed"
  /** Stands for whatever error the mail transport returns; its text is not the service's own. */
  const MailFailed: string := "smtp send failed"
}

=== FILE: text.dfy ===
/** String helpers the source takes from Go's `strings` package and from SQL: splitting on a
    separator, ASCII lower-casing, and the `LIKE` pattern match. */
module Text {

  /** Go's `strings.Split(s, sep)` for a one-character separator: the pieces between the
      separators, so an empty string gives one empty piece. */
  function Split(s: string, sep: char): (parts: seq<string>)
    ensures |parts| >= 1
    ensures forall i :: 0 <= i < |parts| ==> sep !in parts[i]
    decreases |s|
  {
    if |s| == 0 then [""]
    else
      var rest := Split(s[1..], sep);
      if s[0] == sep then [""] + rest
      else [[s[0]] + rest[0]] + rest[1..]
  }

  /** Go's `strings.Join(parts, sep)`: the pieces with one separator between neighbours. */
  function Join(parts: seq<string>, sep: char): string
    requires |parts| >= 1
    decreases |parts|
  {
    if |parts| == 1 then parts[0] else parts[0] + [sep] + Join(parts[1..], sep)
  }

  /** Splitting loses nothing: joining the pieces gives back the original string. */
  lemma {:induction false} SplitThenJoin(s: string, sep: char)
    ensures Join(Split(s, sep), sep) == s
    decreases |s|
  {
    if |s| > 0 {
      SplitThenJoin(s[1..], sep);
      var rest := Split(s[1..], sep);
      if s[0] == sep {
        assert ([""] + rest)[1..] == rest;
      } else if |rest| > 1 {
        var parts := [[s[0]] + rest[0]] + rest[1..];
        assert parts[1..] == rest[1..];
        assert Join(rest, sep) == rest[0] + [sep] + Join(rest[1..], sep);
      }
    }
  }

  /** A piece without the separator splits into itself. */
  lemma {:induction false} SplitWithoutSeparator(p: string, sep: char)
    requires sep !in p
    ensures Split(p, sep) == [p]
    decreases |p|
  {
    if |p| > 0 {
      SplitWithoutSeparator(p[1..], sep);
      assert [p[0]] + p[1..] == p;
    }
  }

  /** Splitting `p + sep + t` peels off `p` when `p` holds no separator. */
  lemma {:induction false} SplitAfterPiece(p: string, sep: char, t: string)
    requires sep !in p
    ensures Split(p + [sep] + t, sep) == [p] + Split(t, sep)
    decreases |p|
  {
    var s := p + [sep] + t;
    if |p| == 0 {
      assert s[1..] == t;
    } else {
      assert s[1..] == p[1..] + [sep] + t;
      SplitAfterPiece(p[1..], sep, t);
      assert [p[0]] + p[1..] == p;
    }
  }

  /** Joining separator-free pieces and splitting again gives the same pieces. */
  lemma {:induction false} JoinThenSplit(parts: seq<string>, sep: char)
    requires |parts| >= 1
    requires forall i :: 0 <= i < |parts| ==> sep !in parts[i]
    ensures Split(Join(parts, sep), sep) == parts
    decreases |parts|
  {
    if |parts| == 1 {
      SplitWithoutSeparator(parts[0], sep);
    } else {
      JoinThenSplit(parts[1..], sep);
      SplitAfterPiece(parts[0], sep, Join(parts[1..], sep));
      assert [parts[0]] + parts[1..] == parts;
    }
  }

  /** How many bytes the UTF-8 encoding of one character takes. */
  function Utf8Width(c: char): (w: nat)
    ensures 1 <= w <= 4
    ensures w == 1 <==> (c as int) < 0x80
  {
    if (c as int) < 0x80 then 1 else if (c as int) < 0x800 then 2 else if (c as int) < 0x10000 then 3 else 4
  }

  predicate IsAscii(s: string)
  {
    forall i :: 0 <= i < |s| ==> (s[i] as int) < 0x80
  }

  /** Go's `len` of a string: its length in UTF-8 bytes, never below its length in characters,
      and equal to it exactly when every character is ASCII. */
  function Utf8Length(s: string): (n: nat)
    ensures n >= |s|
    ensures n == |s| <==> IsAscii(s)
  {
    if s == [] then 0 else Utf8Width(s[0]) + Utf8Length(s[1..])
  }

  /** Lower-cases one character, ASCII letters only. */
  function LowerChar(c: char): char
  {
    if 'A' <= c <= 'Z' then (c as int + 32) as char else c
  }

  /** `strings.ToLower` / SQL `lower`, restricted to ASCII letters. */
  function Lower(s: string): (r: string)
    ensures |r| == |s|
    ensures forall i :: 0 <= i < |s| ==> r[i] == LowerChar(s[i])
  {
    seq(|s|, i requires 0 <= i < |s| => LowerChar(s[i]))
  }

  /** SQL `s LIKE pattern` without an escape character: `%` matches any run of characters,
      `_` any single character, and every other character itself. */
  predicate Like(s: string, pattern: string)
    decreases |s| + |pattern|
  {
    if |pattern| == 0 then |s| == 0
    else if pattern[0] == '%' then Like(s, pattern[1..]) || (|s| > 0 && Like(s[1..], pattern))
    else |s| > 0 && (pattern[0] == '_' || pattern[0] == s[0]) && Like(s[1..], pattern[1..])
  }

  /** `q` holds neither of the LIKE wildcards. */
  predicate NoWildcards(q: string)
  {
    '%' !in q && '_' !in q
  }

  predicate IsPrefix(q: string, s: string)
  {
    |q| <= |s| && s[..|q|] == q
  }

  /** `q` occurs in `s` as a contiguous substring. */
  predicate Contains(s: string, q: string)
    decreases |s|
  {
    IsPrefix(q, s) || (|s| > 0 && Contains(s[1..], q))
  }

  lemma {:induction false} LikeTrailingPercent(s: string)
    ensures Like(s, "%")
    decreases |s|
  {
    if |s| > 0 {
      LikeTrailingPercent(s[1..]);
    }
  }

  /** `q%` matches exactly the strings that start with a wildcard-free `q`. */
  lemma {:induction false} LikePrefix(s: string, q: string)
    requires NoWildcards(q)
    ensures Like(s, q + "%") <==> IsPrefix(q, s)
    decreases |q|
  {
    if |q| == 0 {
      assert q + "%" == "%";
      LikeTrailingPercent(s);
    } else {
      var pat := q + "%";
      assert pat[0] == q[0] && pat[1..] == q[1..] + "%";
      assert '%' !in q[1..] && '_' !in q[1..];
      if |s| > 0 {
        LikePrefix(s[1..], q[1..]);
        if IsPrefix(q, s) {
          assert s[1..][..|q| - 1] == s[..|q|][1..];
        }
        if IsPrefix(q[1..], s[1..]) && q[0] == s[0] {
          assert s[..|q|] == [s[0]] + s[1..][..|q| - 1];
          assert q == [q[0]] + q[1..];
        }
      }
    }
  }

  /** The repository's search pattern `%q%` is substring containment when `q` has no wildcard. */
  lemma {:induction false} LikeIsContainment(s: string, q: string)
    requires NoWildcards(q)
    ensures Like(s, "%" + q + "%") <==> Contains(s, q)
    decreases |s|
  {
    var pat := "%" + q + "%";
    assert pat[1..] == q + "%";
    LikePrefix(s, q);
    if |s| > 0 {
      LikeIsContainment(s[1..], q);
    }
  }
}

=== FILE: token_repository.dfy ===
/** The token store contract (internal/repository/repository.go, `TokenRepository`): rows kept in
    primary-key order, with the next auto-increment key. */
module TokenRepository {
  import opened Results
  import opened Seqs
  import opened Models

  datatype TokenStore = TokenStore(rows: seq<TokenRecord>, nextId: nat)

  const WriteFailed: string := "token store write failed"

  function KeyOf(r: TokenRecord): nat { r.id }

  /** Primary keys are distinct and all below the next key to hand out. */
  predicate Valid(ts: TokenStore)
  {
    Distinct(ts.rows, KeyOf) && forall i :: 0 <= i < |ts.rows| ==> ts.rows[i].id < ts.nextId
  }

  /** The row a `Create` with these fields inserts. */
  function NewRecord(ts: TokenStore, token: string, userId: string, expires: int, tokenType: string): TokenRecord
  {
    TokenRecord(ts.nextId, token, userId, tokenType, expires, false)
  }

  /** `Create`: appends one non-blacklisted row under the next key, unless the backend refuses
      the write (`fails`). */
  function Create(ts: TokenStore, token: string, userId: string, expires: int, tokenType: string, fails: bool)
    : (r: Result<TokenStore, string>)
    ensures r.Ok? <==> !fails
    ensures r.Ok? ==> r.value.rows == ts.rows + [NewRecord(ts, token, userId, expires, tokenType)]
    ensures r.Ok? ==> r.value.nextId == ts.nextId + 1
  {
    if fails then Err(WriteFailed)
    else Ok(TokenStore(ts.rows + [NewRecord(ts, token, userId, expires, tokenType)], ts.nextId + 1))
  }

  predicate Matches(r: TokenRecord, token: string, tokenType: string)
  {
    r.token == token && r.tokenType == tokenType
  }

  /** `FindByToken(token, type)`: the first row with this exact token string AND purpose tag.
      The blacklisted flag and the expiry are not consulted. */
  function FindByToken(ts: TokenStore, token: string, tokenType: string): (r: Option<TokenRecord>)
    ensures r.Some? ==> r.value in ts.rows && r.value.token == token && r.value.tokenType == tokenType
    ensures r.None? <==> forall i :: 0 <= i < |ts.rows| ==> !Matches(ts.rows[i], token, tokenType)
  {
    First(ts.rows, (x: TokenRecord) => Matches(x, token, tokenType))
  }

  /** `Delete(record)`: removes the row with that primary key. */
  function Delete(ts: TokenStore, rec: TokenRecord, fails: bool): (r: Result<TokenStore, string>)
    ensures r.Ok? <==> !fails
    ensures r.Ok? ==> r.value.nextId == ts.nextId
    ensures r.Ok? ==> forall x :: x in r.value.rows <==> x in ts.rows && x.id != rec.id
  {
    if fails then Err(WriteFailed)
    else Ok(ts.(rows := Filter(ts.rows, (x: TokenRecord) => x.id != rec.id)))
  }

  /** `DeleteByUserIDAndType`: removes every row of that user with that purpose tag. */
  function DeleteByUserIDAndType(ts: TokenStore, userId: string, tokenType: string, fails: bool)
    : (r: Result<TokenStore, string>)
    ensures r.Ok? <==> !fails
    ensures r.Ok? ==> r.value.nextId == ts.nextId
    ensures r.Ok? ==> forall x :: x in r.value.rows <==> x in ts.rows && !(x.userId == userId && x.tokenType == tokenType)
  {
    if fails then Err(WriteFailed)
    else Ok(ts.(rows := Filter(ts.rows, (x: TokenRecord) => !(x.userId == userId && x.tokenType == tokenType))))
  }

  lemma CreateKeepsValid(ts: TokenStore, token: string, userId: string, expires: int, tokenType: string)
    requires Valid(ts)
    ensures Valid(Create(ts, token, userId, expires, tokenType, false).value)
  {
    DistinctAppend(ts.rows, KeyOf, NewRecord(ts, token, userId, expires, tokenType));
  }

  /** Deleting a stored record removes that record and no other, and keeps the store valid. */
  lemma DeleteRemovesExactlyThatRecord(ts: TokenStore, rec: TokenRecord)
    requires Valid(ts) && rec in ts.rows
    ensures var after := Delete(ts, rec, false).value;
      && Valid(after)
      && rec !in after.rows
      && forall x :: x in after.rows <==> x in ts.rows && x != rec
  {
    var p := (x: TokenRecord) => x.id != rec.id;
    DistinctFilter(ts.rows, KeyOf, p);
    var after := Delete(ts, rec, false).value;
    assert after.rows == Filter(ts.rows, p);
    forall x | x in ts.rows && x.id == rec.id
      ensures x == rec
    {
      DistinctKeyDeterminesElement(ts.rows, KeyOf, x, rec);
    }
  }

  lemma DeleteByUserIDAndTypeKeepsValid(ts: TokenStore, userId: string, tokenType: string)
    requires Valid(ts)
    ensures Valid(DeleteByUserIDAndType(ts, userId, tokenType, false).value)
  {
    var p := (x: TokenRecord) => !(x.userId == userId && x.tokenType == tokenType);
    DistinctFilter(ts.rows, KeyOf, p);
    assert DeleteByUserIDAndType(ts, userId, tokenType, false).value.rows == Filter(ts.rows, p);
  }
}

=== FILE: token_service.dfy ===
/** Token issuance and lookup (internal/service/token_service.go). */
module TokenService {
  import opened Results
  import opened Models
  import opened Jwt
  import opened Config
  import opened TokenRepository

  /** The access/refresh pair handed back to the caller, with both expiry instants. */
  datatype AuthTokens = AuthTokens(access: string, refresh: string, accessExp: int, refreshExp: int)

  function AccessClaims(user: User): Claims { Claims(user.id, user.role, TypeAccess) }
  function RefreshClaims(user: User): Claims { Claims(user.id, user.role, TypeRefresh) }

  /** `SaveToken`: one new record with exactly the given token, user, expiry and purpose. */
  function SaveToken(ts: TokenStore, token: string, userId: string, expires: int, tokenType: string, fails: bool)
    : (r: Result<TokenStore, string>)
    ensures r.Ok? <==> !fails
    ensures r.Ok? ==> |r.value.rows| == |ts.rows| + 1 && r.value.rows[..|ts.rows|] == ts.rows
    ensures r.Ok? ==> var rec := r.value.rows[|ts.rows|];
      rec.token == token && rec.userId == userId && rec.expires == expires && rec.tokenType == tokenType
      && !rec.blacklisted
  {
    var r := Create(ts, token, userId, expires, tokenType, fails);
    assert r.Ok? ==> r.value.rows[..|ts.rows|] == ts.rows;
    r
  }

  /** `VerifyToken`: the store lookup by the pair (token string, purpose tag). */
  function VerifyToken(ts: TokenStore, token: string, tokenType: string): (r: Option<TokenRecord>)
    ensures r.Some? ==> r.value in ts.rows && r.value.token == token && r.value.tokenType == tokenType
    ensures r.None? <==> forall i :: 0 <= i < |ts.rows| ==> !Matches(ts.rows[i], token, tokenType)
  {
    FindByToken(ts, token, tokenType)
  }

  /** `GenerateAuthTokens`: signs an access token (purpose "access", access lifetime) and a refresh
      token (purpose "refresh", refresh lifetime), then persists the refresh token only. Any failure
      returns an error and leaves the store as it was. */
  function GenerateAuthTokens(ts: TokenStore, user: User, jwt: JwtConfig, codec: Codec, saveFails: bool)
    : (r: (Result<AuthTokens, string>, TokenStore))
    ensures var access := codec.generate(AccessClaims(user), jwt.accessExpiration, jwt.secret);
      var refresh := codec.generate(RefreshClaims(user), jwt.refreshExpiration, jwt.secret);
      && (r.0.Ok? <==> access.Ok? && refresh.Ok? && !saveFails)
      && (r.0.Err? ==> r.1 == ts)
      && (access.Err? ==> r.0 == Err(access.error))
      && (access.Ok? && refresh.Err? ==> r.0 == Err(refresh.error))
      && (access.Ok? && refresh.Ok? && saveFails ==> r.0 == Err(WriteFailed))
      && (r.0.Ok? ==>
            && r.0.value == AuthTokens(access.value.token, refresh.value.token, access.value.expires, refresh.value.expires)
            && r.1.rows == ts.rows + [TokenRecord(ts.nextId, r.0.value.refresh, user.id, TypeRefresh, r.0.value.refreshExp, false)]
            && r.1.nextId == ts.nextId + 1)
  {
    match codec.generate(AccessClaims(user), jwt.accessExpiration, jwt.secret)
    case Err(e) => (Err(e), ts)
    case Ok(access) =>
      match codec.generate(RefreshClaims(user), jwt.refreshExpiration, jwt.secret)
      case Err(e) => (Err(e), ts)
      case Ok(refresh) =>
        match Create(ts, refresh.token, user.id, refresh.expires, TypeRefresh, saveFails)
        case Err(e) => (Err(e), ts)
        case Ok(saved) => (Ok(AuthTokens(access.token, refresh.token, access.expires, refresh.expires)), saved)
  }

  /** Issuing a pair keeps the token store's keys distinct. */
  lemma GenerateAuthTokensKeepsValid(ts: TokenStore, user: User, jwt: JwtConfig, codec: Codec, saveFails: bool)
    requires Valid(ts)
    ensures Valid(GenerateAuthTokens(ts, user, jwt, codec, saveFails).1)
  {
    var (tokens, after) := GenerateAuthTokens(ts, user, jwt, codec, saveFails);
    if tokens.Ok? {
      CreateKeepsValid(ts, tokens.value.refresh, user.id, tokens.value.refreshExp, TypeRefresh);
    }
  }

  /** Saving a token keeps the token store's keys distinct. */
  lemma SaveTokenKeepsValid(ts: TokenStore, token: string, userId: string, expires: int, tokenType: string)
    requires Valid(ts)
    ensures Valid(SaveToken(ts, token, userId, expires, tokenType, false).value)
  {
    CreateKeepsValid(ts, token, userId, expires, tokenType);
  }
}

=== FILE: user_handler.dfy ===
/** The user-administration RPCs (internal/grpc_handler/user_handler.go): a role guard first,
    then one service call, then the mapping of its error to a gRPC status. */
module UserHandler {
  import opened Results
  import opened GrpcStatus
  import opened Decimal
  import opened Models
  import opened Pagination
  import opened CallContext
  import opened UserRepository
  import opened ServiceErrors
  import UserService
  import Roles

  /** The RPC's answer, the user table afterwards, and the `x-http-code` header if one was set. */
  datatype Reply<T> = Reply(result: Result<T, Status>, users: Rows, httpCode: Option<string>)

  datatype CreateUserRequest = CreateUserRequest(name: string, email: string, password: string, role: string)

  /** `ListUsersRequest`; page and limit are `int32`. */
  datatype ListUsersRequest = ListUsersRequest(search: string, role: string, scope: string, page: int, limit: int, sort: string)

  datatype ListUsersResponse = ListUsersResponse(results: seq<User>, page: int, limit: int, totalPages: int, totalResults: int)

  datatype UpdateUserRequest = UpdateUserRequest(id: string, name: string, email: string, password: string)

  const NoSuchUser: Status := Status(NotFound, UserNotFound)
  const Created: int := 201
  const NoContent: int := 204

  /** The limit the page count divides by: 10 below 1, and NOT capped at 100. */
  function PagesLimit(limit: int): (l: int)
    ensures l >= 1
    ensures limit < 1 ==> l == 10
    ensures limit >= 1 ==> l == limit
  {
    if limit < 1 then 10 else limit
  }

  /** `int32((total + int64(limit) - 1) / int64(limit))`, in Go's int64 then int32 arithmetic. */
  function TotalPages(total: nat, limit: int): (tp: int)
    ensures IsInt32(tp)
  {
    var l := PagesLimit(limit);
    Wrap32(Quot(Wrap64(total + l - 1), l))
  }

  /** While nothing overflows the page count is the ceiling of total / limit: the pages before
      the last hold fewer than `total` rows and all pages together hold at least `total`. */
  lemma TotalPagesIsCeiling(total: nat, limit: int)
    requires IsInt32(limit)
    requires IsInt64(total + PagesLimit(limit))
    requires (total + PagesLimit(limit) - 1) / PagesLimit(limit) <= Int32Max
    ensures var tp := TotalPages(total, limit);
      && tp >= 0
      && tp * PagesLimit(limit) >= total
      && (tp == 0 <==> total == 0)
      && (tp > 0 ==> (tp - 1) * PagesLimit(limit) < total)
  {
    var l := PagesLimit(limit);
    var n := total + l - 1;
    assert Wrap64(n) == n;
    var q := Quot(n, l);
    assert q == n / l;
    assert Wrap32(q) == q;
    CeilingBounds(total, l, q);
  }

  /** The arithmetic behind the ceiling: from `q*l <= total+l-1 < (q+1)*l`. */
  lemma CeilingBounds(total: nat, l: int, q: int)
    requires l >= 1
    requires q * l <= total + l - 1 < (q + 1) * l
    ensures q >= 0 && q * l >= total
    ensures q == 0 <==> total == 0
    ensures q > 0 ==> (q - 1) * l < total
  {
    assert (q + 1) * l == q * l + l;
    assert (q - 1) * l == q * l - l;
    if q > 0 {
      assert q * l >= l by {
        assert q >= 1;
      }
    }
  }

  /** The page count ignores Paginate's cap of 100: asking for 1000 per page over 2500 rows
      reports 3 pages, while each page holds only 100 rows. */
  lemma TotalPagesIgnoresCap()
    ensures TotalPages(2500, 1000) == 3
    ensures EffectiveLimit(1000) == 100
  {
  }

  /** `CreateUser`: admins only; a service failure is InvalidArgument; 201 is set only on success. */
  function CreateUser(ctx: Ctx, rows: Rows, req: CreateUserRequest, freshId: string, hasher: Hasher): (r: Reply<User>)
    ensures Roles.AuthorizeAdmin(ctx).Err? ==> r == Reply(Err(Roles.AuthorizeAdmin(ctx).error), rows, None)
    ensures Roles.AuthorizeAdmin(ctx).Ok? ==> (
      var s := UserService.CreateUser(rows, req.name, req.email, req.password, req.role, freshId, hasher);
      && (r.result.Ok? <==> s.Ok?)
      && (s.Ok? ==> r.result.value == s.value.0 && r.users == s.value.1)
      && (s.Err? ==> r.result.error == Status(InvalidArgument, s.error) && r.users == rows))
    ensures r.httpCode.Some? <==> r.result.Ok?
    ensures r.httpCode.Some? ==> r.httpCode.value == Itoa(Created)
  {
    match Roles.AuthorizeAdmin(ctx)
    case Err(e) => Reply(Err(e), rows, None)
    case Ok(_) =>
      match UserService.CreateUser(rows, req.name, req.email, req.password, req.role, freshId, hasher)
      case Err(e) => Reply(Err(Status(InvalidArgument, e)), rows, None)
      case Ok((u, after)) => Reply(Ok(u), after, Some(Itoa(Created)))
  }

  /** `GetUser`: the caller itself or an admin; a missing user is NotFound "user not found". */
  function GetUser(ctx: Ctx, rows: Rows, id: string): (r: Reply<User>)
    ensures r.users == rows && r.httpCode.None?
    ensures Roles.AuthorizeAdminOrSelf(ctx, id).Err? ==> r.result == Err(Roles.AuthorizeAdminOrSelf(ctx, id).error)
    ensures Roles.AuthorizeAdminOrSelf(ctx, id).Ok? ==> (
      && (FindByID(rows, id).None? ==> r.result == Err(NoSuchUser))
      && (FindByID(rows, id).Some? ==> r.result == Ok(FindByID(rows, id).value)))
  {
    match Roles.AuthorizeAdminOrSelf(ctx, id)
    case Err(e) => Reply(Err(e), rows, None)
    case Ok(_) =>
      match UserService.GetUserByID(rows, id)
      case Err(_) => Reply(Err(NoSuchUser), rows, None)
      case Ok(u) => Reply(Ok(u), rows, None)
  }

  /** `ListUsers`: admins only. The response echoes the request's raw page and limit, while the
      rows come from the clamped window. */
  function ListUsers(ctx: Ctx, rows: Rows, req: ListUsersRequest, isUuid: string -> bool): (r: Reply<ListUsersResponse>)
    requires IsInt32(req.page) && IsInt32(req.limit)
    ensures r.users == rows && r.httpCode.None?
    ensures Roles.AuthorizeAdmin(ctx).Err? ==> r.result == Err(Roles.AuthorizeAdmin(ctx).error)
    ensures Roles.AuthorizeAdmin(ctx).Ok? ==> (
      r.result.Ok? &&
      var resp := r.result.value;
      var f := Filters(req.search, req.role, req.scope);
      && resp.page == req.page && resp.limit == req.limit
      && var listing := UserService.GetUsers(rows, f, req.page, req.limit, req.sort, isUuid);
      && resp.results == listing.users && resp.totalResults == listing.total
      && resp.totalResults == |Seqs.Filter(rows, (u: User) => Keep(u, f, isUuid))|
      && resp.totalPages == TotalPages(resp.totalResults, req.limit)
      && |resp.results| <= EffectiveLimit(req.limit)
      && forall i :: 0 <= i < |resp.results| ==> resp.results[i] in rows && Keep(resp.results[i], f, isUuid))
  {
    match Roles.AuthorizeAdmin(ctx)
    case Err(e) => Reply(Err(e), rows, None)
    case Ok(_) =>
      var listing := UserService.GetUsers(rows, Filters(req.search, req.role, req.scope), req.page, req.limit, req.sort, isUuid);
      Reply(Ok(ListUsersResponse(listing.users, req.page, req.limit, TotalPages(listing.total, req.limit), listing.total)), rows, None)
  }

  /** `UpdateUser`: admins only; a service failure is Internal with the service's text. The
      request carries no role, so the stored role survives. */
  function UpdateUser(ctx: Ctx, rows: Rows, req: UpdateUserRequest, hasher: Hasher): (r: Reply<User>)
    ensures r.httpCode.None?
    ensures Roles.AuthorizeAdmin(ctx).Err? ==> r == Reply(Err(Roles.AuthorizeAdmin(ctx).error), rows, None)
    ensures Roles.AuthorizeAdmin(ctx).Ok? && FindByID(rows, req.id).None? ==>
      r == Reply(Err(Status(Internal, UserNotFound)), rows, None)
    ensures Roles.AuthorizeAdmin(ctx).Ok? ==> (
      var s := UserService.UpdateUser(rows, req.id, UserService.UpdateUserDTO(req.name, req.email, req.password), hasher);
      && (r.result.Ok? <==> s.Ok?)
      && (s.Err? ==> r.result.error == Status(Internal, s.error))
      && (s.Ok? ==> r.result.value == s.value.0 && r.users == s.value.1))
    ensures r.result.Err? ==> r.users == rows
    ensures r.result.Ok? ==> (
      FindByID(rows, req.id).Some? &&
      var before := FindByID(rows, req.id).value;
      && r.result.value.id == before.id && r.result.value.role == before.role
      && r.users == Replace(rows, r.result.value))
  {
    match Roles.AuthorizeAdmin(ctx)
    case Err(e) => Reply(Err(e), rows, None)
    case Ok(_) =>
      match UserService.UpdateUser(rows, req.id, UserService.UpdateUserDTO(req.name, req.email, req.password), hasher)
      case Err(e) => Reply(Err(Status(Internal, e)), rows, None)
      case Ok((u, after)) => Reply(Ok(u), after, None)
  }

  /** `DeleteUser`: admins only; an unknown id is NotFound "user not found"; 204 is set only on
      success. */
  function DeleteUser(ctx: Ctx, rows: Rows, id: string): (r: Reply<bool>)
    ensures Roles.AuthorizeAdmin(ctx).Err? ==> r == Reply(Err(Roles.AuthorizeAdmin(ctx).error), rows, None)
    ensures Roles.AuthorizeAdmin(ctx).Ok? && FindByID(rows, id).None? ==> r == Reply(Err(NoSuchUser), rows, None)
    ensures r.result.Ok? ==> r.result.value && forall x :: x in r.users <==> x in rows && x.id != id
    ensures Roles.AuthorizeAdmin(ctx).Ok? ==> (
      var s := UserService.DeleteUser(rows, id);
      && (r.result.Ok? <==> s.Ok?)
      && (s.Ok? ==> r.users == s.value)
      && (s.Err? ==> r.result.error == Status(NotFound, s.error) && r.users == rows))
    ensures r.httpCode.Some? <==> r.result.Ok?
    ensures r.httpCode.Some? ==> r.httpCode.value == Itoa(NoContent)
  {
    match Roles.AuthorizeAdmin(ctx)
    case Err(e) => Reply(Err(e), rows, None)
    case Ok(_) =>
      match UserService.DeleteUser(rows, id)
      case Err(e) => Reply(Err(Status(NotFound, e)), rows, None)
      case Ok(after) => Reply(Ok(true), after, Some(Itoa(NoContent)))
  }

  /** The status headers read back as the numbers they were written from. */
  lemma HttpCodesReadBack()
    ensures Atoi(Itoa(Created)) == Some(Created)
    ensures Atoi(Itoa(NoContent)) == Some(NoContent)
  {
    AtoiItoa(Created);
    AtoiItoa(NoContent);
  }

  /** A caller whose role is "user" can read its own record but no one else's. */
  lemma UsersSeeOnlyThemselves(ctx: Ctx, rows: Rows, id: string)
    requires ctx.userId.Some? && ctx.userId.value != "" && ctx.role == Some("user")
    ensures id == ctx.userId.value && FindByID(rows, id).Some? ==> GetUser(ctx, rows, id).result.Ok?
    ensures id != ctx.userId.value ==> GetUser(ctx, rows, id).result == Err(Roles.AdminsOnly)
  {
    Roles.SelfOrAdmin(ctx, id);
  }
}

=== FILE: user_repository.dfy ===
/** The user store (internal/repository/user_repository.go): the table as a sequence of rows in
    insertion order, with the unique email index and primary key enforced on writes. */
module UserRepository {
  import opened Results
  import opened Seqs
  import opened Text
  import opened Decimal
  import opened Models
  import opened Pagination

  type Rows = seq<User>

  const ConstraintFailed: string := "UNIQUE constraint failed"
  const RecordNotFound: string := "record not found"

  function IdOf(u: User): string { u.id }
  function EmailOf(u: User): string { u.email }

  /** The table invariant: ids (primary key) and emails (unique index) are distinct. */
  predicate WellFormed(rows: Rows)
  {
    Distinct(rows, IdOf) && Distinct(rows, EmailOf)
  }

  /** `FindByID`: the row with this id, if any. */
  function FindByID(rows: Rows, id: string): (r: Option<User>)
    ensures r.Some? ==> r.value in rows && r.value.id == id
    ensures r.None? <==> forall i :: 0 <= i < |rows| ==> rows[i].id != id
  {
    First(rows, (u: User) => u.id == id)
  }

  /** `FindByEmail`: the first row with this email, if any. */
  function FindByEmail(rows: Rows, email: string): (r: Option<User>)
    ensures r.Some? ==> r.value in rows && r.value.email == email
    ensures r.None? <==> forall i :: 0 <= i < |rows| ==> rows[i].email != email
  {
    First(rows, (u: User) => u.email == email)
  }

  /** `ExistsByEmail`: the count of rows with this email is positive. */
  function ExistsByEmail(rows: Rows, email: string): (r: bool)
    ensures r <==> exists i :: 0 <= i < |rows| && rows[i].email == email
  {
    var matching := Filter(rows, (u: User) => u.email == email);
    assert forall i :: 0 <= i < |rows| && rows[i].email == email ==> rows[i] in matching;
    assert |matching| > 0 ==> matching[0] in rows && matching[0].email == email;
    |matching| > 0
  }

  /** The column defaults applied on insert: an empty role becomes "user". */
  function WithDefaults(u: User): (r: User)
    ensures r.(role := u.role) == u
    ensures r.role != ""
    ensures u.role != "" ==> r.role == u.role
  {
    if u.role == "" then u.(role := DefaultRole) else u
  }

  /** `Create`: runs `BeforeSave` then `BeforeCreate`, fills in the column defaults, then inserts
      unless the id or the email is already present. Returns the row as stored. */
  function Create(rows: Rows, u: User, freshId: string, hasher: Hasher): (r: Result<(User, Rows), string>)
    ensures r.Ok? ==> r.value.1 == rows + [r.value.0]
    ensures r.Ok? ==> r.value.0.(id := u.id, password := u.password, role := u.role) == u
    ensures r.Ok? ==> r.value.0.id == (if u.id == "" then freshId else u.id)
    ensures r.Ok? ==> r.value.0.role == WithDefaults(u).role
    ensures r.Ok? ==> BeforeSave(u, hasher).Ok? && r.value.0.password == BeforeSave(u, hasher).value.password
    ensures r.Ok? ==> !ExistsByEmail(rows, u.email) && FindByID(rows, r.value.0.id).None?
    ensures ExistsByEmail(rows, u.email) ==> r.Err?
    ensures r.Ok? <==> BeforeSave(u, hasher).Ok? && !ExistsByEmail(rows, u.email)
                       && FindByID(rows, if u.id == "" then freshId else u.id).None?
    ensures BeforeSave(u, hasher).Err? ==> r == Err(BeforeSave(u, hasher).error)
    ensures BeforeSave(u, hasher).Ok? && r.Err? ==> r.error == ConstraintFailed
  {
    match BeforeSave(u, hasher)
    case Err(e) => Err(e)
    case Ok(saved) =>
      var stored := WithDefaults(BeforeCreate(saved, freshId));
      if FindByID(rows, stored.id).Some? || ExistsByEmail(rows, stored.email) then Err(ConstraintFailed)
      else Ok((stored, rows + [stored]))
  }

  /** Every row, with the row of `u`'s id replaced by `u`. */
  function Replace(rows: Rows, u: User): (r: Rows)
    ensures |r| == |rows|
    ensures forall i :: 0 <= i < |rows| ==> r[i] == (if rows[i].id == u.id then u else rows[i])
  {
    seq(|rows|, i requires 0 <= i < |rows| => if rows[i].id == u.id then u else rows[i])
  }

  /** Another row than `u`'s already holds `u`'s email. */
  predicate EmailTakenByOther(rows: Rows, u: User)
  {
    exists i :: 0 <= i < |rows| && rows[i].id != u.id && rows[i].email == u.email
  }

  /** `Update` (GORM `Save`): runs `BeforeSave`, then writes every field of the row with that id;
      a row that does not exist is inserted. The unique email index is enforced. */
  function Update(rows: Rows, u: User, hasher: Hasher): (r: Result<(User, Rows), string>)
    ensures r.Ok? ==> r.value.0.(password := u.password) == u
    ensures r.Ok? && FindByID(rows, u.id).Some? ==> r.value.1 == Replace(rows, r.value.0)
    ensures EmailTakenByOther(rows, u) ==> r.Err?
    ensures r.Ok? <==> BeforeSave(u, hasher).Ok? && !EmailTakenByOther(rows, u)
    ensures BeforeSave(u, hasher).Err? ==> r == Err(BeforeSave(u, hasher).error)
    ensures BeforeSave(u, hasher).Ok? && r.Err? ==> r.error == ConstraintFailed
    ensures r.Ok? ==> BeforeSave(u, hasher) == Ok(r.value.0)
    ensures r.Ok? && FindByID(rows, u.id).None? ==> r.value.1 == rows + [r.value.0]
  {
    match BeforeSave(u, hasher)
    case Err(e) => Err(e)
    case Ok(saved) =>
      if EmailTakenByOther(rows, saved) then Err(ConstraintFailed)
      else if FindByID(rows, saved.id).Some? then Ok((saved, Replace(rows, saved)))
      else Ok((saved, rows + [saved]))
  }

  /** After an update of an existing row, looking the id up finds the row exactly as saved. */
  lemma UpdateThenFind(rows: Rows, u: User, hasher: Hasher)
    requires FindByID(rows, u.id).Some? && Update(rows, u, hasher).Ok?
    ensures FindByID(Update(rows, u, hasher).value.1, u.id) == Some(Update(rows, u, hasher).value.0)
    ensures BeforeSave(u, hasher) == Ok(Update(rows, u, hasher).value.0)
  {
    var (saved, after) := Update(rows, u, hasher).value;
    assert after == Replace(rows, saved);
    var k :| 0 <= k < |rows| && rows[k].id == u.id;
    assert after[k] == saved;
  }

  /** `Delete(id)`: removes the rows with that id. */
  function Delete(rows: Rows, id: string): (r: Rows)
    ensures forall x :: x in r <==> x in rows && x.id != id
  {
    Filter(rows, (u: User) => u.id != id)
  }

  lemma CreateKeepsWellFormed(rows: Rows, u: User, freshId: string, hasher: Hasher)
    requires WellFormed(rows)
    requires Create(rows, u, freshId, hasher).Ok?
    ensures WellFormed(Create(rows, u, freshId, hasher).value.1)
  {
    var stored := Create(rows, u, freshId, hasher).value.0;
    DistinctAppend(rows, IdOf, stored);
    DistinctAppend(rows, EmailOf, stored);
  }

  lemma UpdateKeepsWellFormed(rows: Rows, u: User, hasher: Hasher)
    requires WellFormed(rows)
    requires Update(rows, u, hasher).Ok?
    ensures WellFormed(Update(rows, u, hasher).value.1)
  {
    var saved := Update(rows, u, hasher).value.0;
    var after := Update(rows, u, hasher).value.1;
    if FindByID(rows, saved.id).Some? {
      DistinctPairwise(rows, IdOf);
      DistinctPairwise(rows, EmailOf);
      DistinctPairwise(after, IdOf);
      DistinctPairwise(after, EmailOf);
      forall i, j | 0 <= i < j < |after|
        ensures after[i].id != after[j].id && after[i].email != after[j].email
      {
        assert IdOf(rows[i]) != IdOf(rows[j]);
      }
    } else {
      DistinctAppend(rows, IdOf, saved);
      DistinctAppend(rows, EmailOf, saved);
    }
  }

  lemma DeleteKeepsWellFormed(rows: Rows, id: string)
    requires WellFormed(rows)
    ensures WellFormed(Delete(rows, id))
  {
    DistinctFilter(rows, IdOf, (u: User) => u.id != id);
    DistinctFilter(rows, EmailOf, (u: User) => u.id != id);
  }

  /** `FindAll` filters. */
  datatype Filters = Filters(search: string, role: string, scope: string)

  /** The search predicate for a non-empty search: LIKE on the lower-cased name or email, or the
      exact id when the search is a valid UUID; any scope but "name", "email" and "id" ORs all three. */
  predicate SearchMatches(u: User, search: string, scope: string, isUuid: string -> bool)
  {
    var pattern := "%" + Lower(search) + "%";
    if scope == "name" then Like(Lower(u.name), pattern)
    else if scope == "email" then Like(Lower(u.email), pattern)
    else if scope == "id" then isUuid(search) && u.id == search
    else Like(Lower(u.name), pattern) || Like(Lower(u.email), pattern) || (isUuid(search) && u.id == search)
  }

  /** A row passes the filters: the search (when non-empty) and the exact role (when non-empty). */
  predicate Keep(u: User, f: Filters, isUuid: string -> bool)
  {
    && (f.search == "" || SearchMatches(u, f.search, f.scope, isUuid))
    && (f.role == "" || u.role == f.role)
  }

  /** One page of users, the total count before paging, and the order clause applied. */
  datatype Listing = Listing(users: seq<User>, total: int, order: Order)

  /** How many filtered rows the page window skips: the page offset, a negative one counting as
      none. */
  function Skip(p: PaginationScope): (n: nat)
    requires IsInt32(p.page) && IsInt32(p.limit)
    ensures Paginate(p).offset >= 0 ==> n == Paginate(p).offset
    ensures Paginate(p).offset < 0 ==> n == 0
  {
    var o := Paginate(p).offset;
    if o < 0 then 0 else o
  }

  /** `FindAll`: filter, count, then take the page window. `rows` is the table in the order the
      database produces for the order clause; a negative offset is not applied. */
  function FindAll(rows: Rows, f: Filters, p: PaginationScope, isUuid: string -> bool): (r: Listing)
    requires IsInt32(p.page) && IsInt32(p.limit)
    ensures r.total == |Filter(rows, (u: User) => Keep(u, f, isUuid))|
    ensures |r.users| <= r.total && |r.users| <= Paginate(p).limit
    ensures forall i :: 0 <= i < |r.users| ==> r.users[i] in rows && Keep(r.users[i], f, isUuid)
    ensures r.order == SortScope(p.sort, AllowedSortFields)
    ensures var m := Filter(rows, (u: User) => Keep(u, f, isUuid));
      && |r.users| == (if Skip(p) >= |m| then 0
                       else if Skip(p) + Paginate(p).limit <= |m| then Paginate(p).limit
                       else |m| - Skip(p))
      && forall i :: 0 <= i < |r.users| ==> Skip(p) + i < |m| && r.users[i] == m[Skip(p) + i]
  {
    var matching := Filter(rows, (u: User) => Keep(u, f, isUuid));
    var w := Paginate(p);
    var start := if w.offset < 0 then 0 else if w.offset > |matching| then |matching| else w.offset;
    var end := if start + w.limit > |matching| then |matching| else start + w.limit;
    Listing(matching[start..end], |matching|, SortScope(p.sort, AllowedSortFields))
  }

  /** Lower-casing never introduces a LIKE wildcard. */
  lemma LowerKeepsNoWildcards(q: string)
    requires NoWildcards(q)
    ensures NoWildcards(Lower(q))
  {
  }

  /** For a search without wildcards, the "name" and "email" scopes are case-insensitive
      substring containment. */
  lemma ScopedSearchIsContainment(u: User, search: string, isUuid: string -> bool)
    requires NoWildcards(search)
    ensures SearchMatches(u, search, "name", isUuid) <==> Contains(Lower(u.name), Lower(search))
    ensures SearchMatches(u, search, "email", isUuid) <==> Contains(Lower(u.email), Lower(search))
  {
    LowerKeepsNoWildcards(search);
    LikeIsContainment(Lower(u.name), Lower(search));
    LikeIsContainment(Lower(u.email), Lower(search));
  }

  /** With no search and no role every row counts towards the total. */
  lemma NoFiltersCountsEverything(rows: Rows, scope: string, p: PaginationScope, isUuid: string -> bool)
    requires IsInt32(p.page) && IsInt32(p.limit)
    ensures FindAll(rows, Filters("", "", scope), p, isUuid).total == |rows|
    decreases |rows|
  {
    var keep := (u: User) => Keep(u, Filters("", "", scope), isUuid);
    FilterAll(rows, keep);
  }

  lemma {:induction false} FilterAll(rows: Rows, p: User -> bool)
    requires forall i :: 0 <= i < |rows| ==> p(rows[i])
    ensures Filter(rows, p) == rows
    decreases |rows|
  {
    if |rows| > 0 {
      FilterAll(rows[1..], p);
      assert [rows[0]] + rows[1..] == rows;
    }
  }

  lemma FilterNone(rows: Rows, p: User -> bool)
    requires forall i :: 0 <= i < |rows| ==> !p(rows[i])
    ensures Filter(rows, p) == []
  {
  }

  /** The "id" scope with a search that is not a UUID finds nothing. */
  lemma IdScopeNeedsUuid(rows: Rows, search: string, role: string, p: PaginationScope, isUuid: string -> bool)
    requires IsInt32(p.page) && IsInt32(p.limit)
    requires search != "" && !isUuid(search)
    ensures FindAll(rows, Filters(search, role, "id"), p, isUuid).total == 0
  {
    var f := Filters(search, role, "id");
    FilterNone(rows, (u: User) => Keep(u, f, isUuid));
  }
}

=== FILE: user_service.dfy ===
/** User administration (internal/service/user_service.go) over the user store. */
module UserService {
  import opened Results
  import opened Seqs
  import opened Decimal
  import opened Models
  import opened Pagination
  import opened UserRepository
  import opened ServiceErrors

  /** The fields an update may change; an empty field means "leave as is". The role is not
      among them. */
  datatype UpdateUserDTO = UpdateUserDTO(name: string, email: string, password: string)

  /** `CreateUser`: refuses a taken email; otherwise stores the user with the role as given (an
      empty role receives the column default). */
  function CreateUser(rows: Rows, name: string, email: string, password: string, role: string,
                      freshId: string, hasher: Hasher): (r: Result<(User, Rows), string>)
    ensures ExistsByEmail(rows, email) ==> r == Err(EmailTaken)
    ensures r.Ok? ==> r.value.1 == rows + [r.value.0]
    ensures r.Ok? ==>
      var u := r.value.0;
      && u.name == name && u.email == email && !u.isEmailVerified
      && u.role == (if role == "" then DefaultRole else role)
    ensures r.Ok? <==> !ExistsByEmail(rows, email)
                       && BeforeSave(User("", name, email, password, role, false), hasher).Ok?
                       && FindByID(rows, freshId).None?
    ensures !ExistsByEmail(rows, email) && r.Err? ==>
      var hooked := BeforeSave(User("", name, email, password, role, false), hasher);
      r.error == (if hooked.Err? then hooked.error else ConstraintFailed)
  {
    if ExistsByEmail(rows, email) then Err(EmailTaken)
    else UserRepository.Create(rows, User("", name, email, password, role, false), freshId, hasher)
  }

  /** `GetUserByID`: the stored row, or the repository's not-found error. */
  function GetUserByID(rows: Rows, id: string): (r: Result<User, string>)
    ensures r.Ok? ==> r.value in rows && r.value.id == id
    ensures r.Err? <==> forall i :: 0 <= i < |rows| ==> rows[i].id != id
    ensures r.Err? ==> r.error == RecordNotFound
  {
    match FindByID(rows, id)
    case Some(u) => Ok(u)
    case None => Err(RecordNotFound)
  }

  /** `GetUsers`: the listing for the raw page, limit and sort, which the pagination scope
      alone interprets. */
  function GetUsers(rows: Rows, f: Filters, page: int, limit: int, sort: string, isUuid: string -> bool): (r: Listing)
    requires IsInt32(page) && IsInt32(limit)
    ensures r.total == |Filter(rows, (u: User) => Keep(u, f, isUuid))|
    ensures |r.users| <= EffectiveLimit(limit) && |r.users| <= r.total
    ensures r.order == SortScope(sort, AllowedSortFields)
    ensures forall i :: 0 <= i < |r.users| ==> r.users[i] in rows && Keep(r.users[i], f, isUuid)
    ensures var m := Filter(rows, (u: User) => Keep(u, f, isUuid));
      var skip := (EffectivePage(page) - 1) * EffectiveLimit(limit);
      skip <= Int32Max ==>
        && |r.users| == (if skip >= |m| then 0
                         else if skip + EffectiveLimit(limit) <= |m| then EffectiveLimit(limit)
                         else |m| - skip)
        && forall i :: 0 <= i < |r.users| ==> 0 <= skip + i < |m| && r.users[i] == m[skip + i]
    ensures Paginate(PaginationScope(page, limit, sort)).offset < 0 ==>
      r.users == Filter(rows, (u: User) => Keep(u, f, isUuid))[..|r.users|]
  {
    var p := PaginationScope(page, limit, sort);
    if (EffectivePage(page) - 1) * EffectiveLimit(limit) <= Int32Max then
      OffsetSkipsEarlierPages(p);
      FindAll(rows, f, p, isUuid)
    else
      FindAll(rows, f, p, isUuid)
  }

  /** The user an update writes: each non-empty field replaces the stored one. */
  function Patched(user: User, req: UpdateUserDTO): (u: User)
    ensures u.id == user.id && u.role == user.role && u.isEmailVerified == user.isEmailVerified
    ensures u.name == (if req.name == "" then user.name else req.name)
    ensures u.email == (if req.email == "" then user.email else req.email)
    ensures u.password == (if req.password == "" then user.password else req.password)
  {
    var u1 := if req.email != "" && req.email != user.email then user.(email := req.email) else user;
    var u2 := if req.name != "" then u1.(name := req.name) else u1;
    if req.password != "" then u2.(password := req.password) else u2
  }

  /** `UpdateUser`: unknown id, then a changed email already in use, are refused before anything
      is saved; otherwise the patched user is saved over the stored one. */
  function UpdateUser(rows: Rows, id: string, req: UpdateUserDTO, hasher: Hasher): (r: Result<(User, Rows), string>)
    ensures FindByID(rows, id).None? ==> r == Err(UserNotFound)
    ensures (FindByID(rows, id).Some? && req.email != "" && req.email != FindByID(rows, id).value.email
             && ExistsByEmail(rows, req.email)) ==> r == Err(EmailTaken)
    ensures r.Ok? ==> (
      FindByID(rows, id).Some? &&
      var patched := Patched(FindByID(rows, id).value, req);
      && BeforeSave(patched, hasher) == Ok(r.value.0)
      && r.value.1 == Replace(rows, r.value.0))
    ensures FindByID(rows, id).Some? ==> (
      var user := FindByID(rows, id).value;
      r.Ok? <==> && !(req.email != "" && req.email != user.email && ExistsByEmail(rows, req.email))
                 && BeforeSave(Patched(user, req), hasher).Ok?
                 && !EmailTakenByOther(rows, Patched(user, req)))
  {
    match FindByID(rows, id)
    case None => Err(UserNotFound)
    case Some(user) =>
      if req.email != "" && req.email != user.email && ExistsByEmail(rows, req.email) then Err(EmailTaken)
      else Update(rows, Patched(user, req), hasher)
  }

  /** `DeleteUser`: an unknown id is refused; otherwise the rows with that id are removed. */
  function DeleteUser(rows: Rows, id: string): (r: Result<Rows, string>)
    ensures r.Err? <==> FindByID(rows, id).None?
    ensures r.Err? ==> r.error == UserNotFound
    ensures r.Ok? ==> forall x :: x in r.value <==> x in rows && x.id != id
  {
    match FindByID(rows, id)
    case None => Err(UserNotFound)
    case Some(_) => Ok(Delete(rows, id))
  }

  lemma CreateUserKeepsWellFormed(rows: Rows, name: string, email: string, password: string, role: string,
                                  freshId: string, hasher: Hasher)
    requires WellFormed(rows)
    ensures CreateUser(rows, name, email, password, role, freshId, hasher).Ok? ==>
      WellFormed(CreateUser(rows, name, email, password, role, freshId, hasher).value.1)
  {
    if !ExistsByEmail(rows, email) && CreateUser(rows, name, email, password, role, freshId, hasher).Ok? {
      CreateKeepsWellFormed(rows, User("", name, email, password, role, false), freshId, hasher);
    }
  }

  /** A successful update keeps the table well formed, and reading the user back gives exactly
      what was saved: same id, role and verification flag, the requested non-empty fields. */
  lemma UpdateUserThenGet(rows: Rows, id: string, req: UpdateUserDTO, hasher: Hasher)
    requires WellFormed(rows)
    requires UpdateUser(rows, id, req, hasher).Ok?
    ensures var (saved, after) := UpdateUser(rows, id, req, hasher).value;
      && WellFormed(after)
      && GetUserByID(after, id) == Ok(saved)
      && saved.id == id && saved.role == FindByID(rows, id).value.role
      && saved.isEmailVerified == FindByID(rows, id).value.isEmailVerified
      && (req.name != "" ==> saved.name == req.name)
      && (req.email != "" ==> saved.email == req.email)
  {
    var user := FindByID(rows, id).value;
    var patched := Patched(user, req);
    UpdateKeepsWellFormed(rows, patched, hasher);
    UpdateThenFind(rows, patched, hasher);
  }

  /** With the store well formed, a successful delete removes exactly the one user with that id. */
  lemma DeleteUserRemovesExactlyOne(rows: Rows, id: string)
    requires WellFormed(rows)
    requires DeleteUser(rows, id).Ok?
    ensures var after := DeleteUser(rows, id).value;
      && WellFormed(after)
      && FindByID(rows, id).value !in after
      && forall x :: x in after <==> x in rows && x != FindByID(rows, id).value
  {
    var target := FindByID(rows, id).value;
    DeleteKeepsWellFormed(rows, id);
    forall x | x in rows && x.id == id
      ensures x == target
    {
      DistinctKeyDeterminesElement(rows, IdOf, x, target);
    }
  }

  /** Keeping the current email skips the uniqueness check, and in a well-formed table the save
      cannot clash either: only a failing hash can stop such an update. */
  lemma UpdateUserKeepingEmailSucceeds(rows: Rows, id: string, req: UpdateUserDTO, hasher: Hasher)
    requires WellFormed(rows) && FindByID(rows, id).Some?
    requires req.email == "" || req.email == FindByID(rows, id).value.email
    requires BeforeSave(Patched(FindByID(rows, id).value, req), hasher).Ok?
    ensures UpdateUser(rows, id, req, hasher).Ok?
  {
    var user := FindByID(rows, id).value;
    var saved := BeforeSave(Patched(user, req), hasher).value;
    forall i | 0 <= i < |rows| && rows[i].email == saved.email
      ensures rows[i].id == saved.id
    {
      DistinctKeyDeterminesElement(rows, EmailOf, rows[i], user);
    }
  }

  /** In a well-formed table an update of a known user succeeds exactly when the hash succeeds
      and the requested email is empty, unchanged or not yet in use. */
  lemma UpdateUserSucceedsExactly(rows: Rows, id: string, req: UpdateUserDTO, hasher: Hasher)
    requires WellFormed(rows) && FindByID(rows, id).Some?
    ensures var user := FindByID(rows, id).value;
      UpdateUser(rows, id, req, hasher).Ok? <==>
        && BeforeSave(Patched(user, req), hasher).Ok?
        && (req.email == "" || req.email == user.email || !ExistsByEmail(rows, req.email))
  {
    var user := FindByID(rows, id).value;
    var patched := Patched(user, req);
    if req.email == "" || req.email == user.email {
      if BeforeSave(patched, hasher).Ok? {
        UpdateUserKeepingEmailSucceeds(rows, id, req, hasher);
      }
    } else if !ExistsByEmail(rows, req.email) {
      assert patched.email == req.email;
      assert !EmailTakenByOther(rows, patched);
    }
  }

  /** Creation from the success side: a free email, an unused fresh id and a working hash make
      the create succeed, and the new user then reads back by the fresh id. */
  lemma CreateUserThenGet(rows: Rows, name: string, email: string, password: string, role: string,
                          freshId: string, hasher: Hasher)
    requires !ExistsByEmail(rows, email) && FindByID(rows, freshId).None?
    requires BeforeSave(User("", name, email, password, role, false), hasher).Ok?
    ensures var r := CreateUser(rows, name, email, password, role, freshId, hasher);
      && r.Ok? && r.value.0.id == freshId
      && GetUserByID(r.value.1, freshId) == Ok(r.value.0)
  {
    var (u, after) := CreateUser(rows, name, email, password, role, freshId, hasher).value;
    assert after[|rows|] == u;
    var found := FindByID(after, freshId).value;
    var k :| 0 <= k < |after| && after[k] == found;
    if k < |rows| {
      assert rows[k] == found;
    }
  }
}

